=== FILE: README.md ===
# ELOAD submission and ingestion, modelled in Dafny

This project models the decision logic of the EVA submission tooling for one ELOAD (a numbered
submission to the European Variation Archive). It covers three parts of the program:

- **Submission bookkeeping** (`Submission`). The `ELOAD_<n>` name and the submission
  directory with its fixed folder taxonomy, plus `_get_dir`. The `submission` section of the
  per-submission checkpoint. Detection of the submitted spreadsheet, the VCF files and the
  assembly/taxonomy attributes, working over a given directory listing.
- **Ingestion** (`Ingestion`). Construction of an `EloadIngestion` with its project folder
  layout. The `ingest` state machine:
  1. It records the ingestion date.
  2. It gates on the brokering facts and on the variant database. Resolving the database
     records `database.db_name` and `database.exists`.
  3. It runs the requested tasks (`metadata_load`, `accession`, `variant_load`) in that fixed
     order. Only the ENA load records an outcome.
- **External references** (`ExtReference`). The get-or-insert of a `dbxref` row and its
  `project_dbxref` link. The first-success probe of the identifiers.org resources. The checks
  `main` makes before it links anything.

Supporting modules:

- `Checkpoint` models the YAML checkpoint (`EloadConfig`) as a map from key paths to values.
  `Query` gives `Null` for a path that was never written.
- `Paths` models the filesystem as a set of existing directories, a path as a sequence of
  components, `os.makedirs` as adding every ancestor, and `glob` as a suffix filter over a
  listing. `glob.glob` skips hidden names; `pathlib`'s `glob` does not.
- `Text` covers ASCII lower-casing, `str.split()`, `'_'.join` and `str(n)`.
- `Results` holds `Option` and `Result`.

Every exception the modelled code raises, except those listed under "## Left out", becomes an error value. The external world is passed in as
parameters:

- EVAPRO and Mongo answers
- the directory listings
- the clock
- the exit statuses of the perl and Nextflow processes
- the identifiers.org answers

A run of `ingest` returns a `Run` with three parts: the checkpoint as written so far, the
processes launched, and the error it ended with. The checkpoint writes through to disk, so a
failed run still carries everything written before the failure.

Three behaviours of the code are worth stating, because a reader might expect otherwise:

- `variant_load` does not depend on a recorded accession outcome. Neither pipeline runner
  records an outcome. A run that requests only `variant_load` launches the load whatever
  happened to accessioning before (`Ingestion.RunTasks`).
- The database is resolved again on every run. `database.exists` is written but never read.
- The database gate applies even when only `metadata_load` is requested.

## Model

| member | source | states |
|---|---|---|
| Text.Lower | eva_submission/eload_ingestion.py:207 | `lower()` keeps the length and leaves no upper-case letter; each upper-case letter becomes its partner 32 code points on, and every other character is kept; an already lower-case string and the absence of whitespace are preserved |
| Text.LowerJoin | eva_submission/eload_ingestion.py:207 | lower-casing words joined by a non-letter separator is joining the lower-cased words |
| Text.Words | eva_submission/eload_ingestion.py:207 | `split()` gives non-empty, whitespace-free words made only of characters of the input |
| Text.WordsOfOneWord | eva_submission/eload_ingestion.py:207 | a non-empty string without whitespace is one word |
| Text.WordsSpaceSplit | eva_submission/eload_ingestion.py:207 | `split()` breaks at every whitespace character: the words of `a + c + b`, for a whitespace `c`, are the words of `a` followed by those of `b`; with the one-word case this determines `split()` fully |
| Text.WordsOfJoin | eva_submission/eload_ingestion.py:207 | splitting non-empty, whitespace-free words joined by single spaces gives those words back |
| Text.WordsKeepEveryOtherCharacter | eva_submission/eload_ingestion.py:207 | gluing the words of `split()` back together gives the input with exactly its whitespace removed |
| Text.DecimalRoundTrip | eva_submission/eload_submission.py:30 | the decimal digits written for a submission number read back as that number |
| Paths.Ancestry | eva_submission/eload_submission.py:34 | `os.makedirs(p)` makes exactly the non-empty prefixes of `p` exist |
| Paths.EnsureLayout | eva_submission/eload_submission.py:34-36 | after creating a root and its layout, the earlier directories, the root and every layout folder exist; every new directory is an ancestor of the root or of a layout folder |
| Paths.EnsureLayoutIdempotent | eva_submission/eload_submission.py:34-36 | creating the same layout again (`exist_ok=True`) changes nothing |
| Paths.MatchingNames | eva_submission/eload_submission.py:71 | a `*<suffix>` glob keeps exactly the listed names with that suffix, skipping hidden names unless asked, and is no longer than the listing |
| Paths.MatchingNamesAppend | eva_submission/eload_submission.py:78-80 | globbing a concatenated listing gives the concatenation of the globs, so listing order is kept |
| Paths.PathStringAppend | eva_submission/eload_submission.py:71 | `os.path.join(dir, name)`: the string of a path with one more component is the parent's string, `/`, then the name |
| Paths.InDir | eva_submission/eload_submission.py:71 | each matched name is reported, in order, as the folder's string followed by `/` and the name |
| Checkpoint.SetThenQuery | eva_submission/eload_ingestion.py:56 | a path reads back what `set` wrote, and every other path reads as before |
| Submission.EloadId | eva_submission/eload_submission.py:30 | the submission name starts with `ELOAD_`, followed by decimal digits that denote the number |
| Submission.EloadIdInjective | eva_submission/eload_submission.py:30 | different submission numbers give different names |
| Submission.EloadDir | eva_submission/eload_submission.py:31 | the submission directory is the name, one level inside the ELOADs directory |
| Submission.NewEload | eva_submission/eload_submission.py:29-36 | construction names the submission, puts the checkpoint at `<dir>/.ELOAD_<n>_config.yml`, and makes the directory and all eight folders exist; it creates nothing outside them and removes nothing |
| Submission.NewEloadIdempotent | eva_submission/eload_submission.py:34-36 | constructing the same submission twice leaves the same directories as constructing it once |
| Submission.EloadsDoNotOverlap | eva_submission/eload_submission.py:30-31 | no path under one submission's directory is under another submission's directory |
| Submission.GetDir | eva_submission/eload_submission.py:38-39 | `_get_dir(k)` is the submission directory joined with `directory_structure[k]`; any of the eight keys succeeds and any other key is a `KeyError` |
| Submission.GetDirDistinct | eva_submission/eload_submission.py:15-24 | different folder keys resolve to different directories |
| Submission.AddToSubmissionConfig | eva_submission/eload_submission.py:58-62 | `submission.<key>` reads back the value and nothing else in the checkpoint changes |
| Submission.DetectSubmittedMetadata | eva_submission/eload_submission.py:69-74 | succeeds iff exactly one visible `*.xlsx` entry exists; that entry's full path is recorded and nothing else changes; otherwise the error carries the count |
| Submission.SubmittedVcfNames | eva_submission/eload_submission.py:76-80 | the reported names are exactly the visible `*.vcf` and `*.vcf.gz` entries, with the `*.vcf` ones first |
| Submission.VcfHalvesDisjoint | eva_submission/eload_submission.py:78-80 | no name matches both patterns, so no file is reported twice |
| Submission.DetectSubmittedVcf | eva_submission/eload_submission.py:76-83 | succeeds iff some visible VCF entry exists; then exactly those full paths are recorded and nothing else changes |
| Submission.UnionAll | eva_submission/eload_submission.py:87-90 | an accession is in the union iff some analysis's reference yields it |
| Submission.Sole | eva_submission/eload_submission.py:95 | `pop()` of a one-element set returns its element |
| Submission.DetectMetadataAttributes | eva_submission/eload_submission.py:85-100 | the taxonomy id is always recorded; the assembly is recorded iff the union holds exactly one accession, and then it is that accession; nothing else changes |
| Submission.DetectMetadataAttributesAsWritten | eva_submission/eload_submission.py:85-100 | as written, the method fails iff the spreadsheet has no analysis; otherwise it agrees with the corrected definition |
| Submission.NoAnalysisLosesTaxonomy | eva_submission/eload_submission.py:88-100 | with no analysis, the code as written raises before it records the taxonomy id; the corrected definition records it |
| Ingestion.PlanOf | eva_submission/eload_ingestion.py:60-66 | no tasks means all three; otherwise each task runs iff its name was requested, and unknown names are ignored |
| Ingestion.PlanIgnoresOrder | eva_submission/eload_ingestion.py:60-66 | two task lists with the same names give the same plan, whatever their order or repetition |
| Ingestion.ProjectDirOf | eva_submission/eload_ingestion.py:165 | the project directory is the accession, one level inside the projects directory (an empty accession names the projects directory) |
| Ingestion.NewIngestion | eva_submission/eload_ingestion.py:40-178 | construction succeeds iff the project accession is a string and the brokered VCFs are a mapping; the project directory and all nine folders exist, even when the VCF check fails; `ingestion.project_dir` is recorded and nothing else changes; the constructed object always passes the brokering check |
| Ingestion.ValidVcfFilenames | eva_submission/eload_ingestion.py:306-308 | the valid VCFs are the full paths of exactly the `*.vcf.gz` entries of the valid folder, hidden names included |
| Ingestion.VepSpeciesName | eva_submission/eload_ingestion.py:206-208 | the VEP species name has no whitespace and no upper-case letter |
| Ingestion.VepSpeciesNameOfWords | eva_submission/eload_ingestion.py:206-208 | a name of words separated by single spaces becomes those words lower-cased and joined by `_` |
| Ingestion.VepSpeciesNameIdempotent | eva_submission/eload_ingestion.py:206-208 | applying the species-name rule to its own output changes nothing |
| Ingestion.VepSpeciesNameOfOneWord | eva_submission/eload_ingestion.py:206-208 | a one-word name is only lower-cased |
| Ingestion.NeedsMergeRule | eva_submission/eload_ingestion.py:278 | once `ingest` has stored the aggregation lower-cased, `needs_merge` is true iff it reads `none` in any capitalisation; a missing or non-string aggregation never merges; writes to other paths do not change the answer |
| Ingestion.GetVepSpecies | eva_submission/eload_ingestion.py:206-208 | succeeds iff a string scientific name is stored, and then gives that name's species form |
| Ingestion.CheckBrokeringDone | eva_submission/eload_ingestion.py:81-87 | passes iff brokered VCFs and a project accession are both present; missing VCFs are reported first, and the accession only when the VCFs are there |
| Ingestion.GetDbName | eva_submission/eload_ingestion.py:89-104 | the lookup for (assembly, taxonomy) succeeds iff EVAPRO gives a non-empty name, and the error names both |
| Ingestion.ResolveDbName | eva_submission/eload_ingestion.py:112-113 | an explicit non-empty name is used unchanged; otherwise the lookup decides; a resolved name is never empty |
| Ingestion.CheckVariantDb | eva_submission/eload_ingestion.py:106-135 | a failed lookup writes nothing; otherwise the name is recorded first; `exists` is true iff the name is exactly one of the warehouse's databases, and the check fails iff it is not; only those two paths change |
| Ingestion.LoadFromEna | eva_submission/eload_ingestion.py:137-159 | launches the ENA load once, records `success` iff the exit status is 0 and `failure` otherwise, fails iff it recorded `failure`, and changes nothing else |
| Ingestion.RunAccessionWorkflow | eva_submission/eload_ingestion.py:210-257 | launches the accessioning pipeline with the stored aggregation and instance id, fails iff its exit status is non-zero, and records nothing |
| Ingestion.RunVariantLoadWorkflow | eva_submission/eload_ingestion.py:259-304 | a study count other than one, or a missing scientific name, launches nothing; otherwise the load starts with `needs_merge` iff aggregation is `'none'`, and with the aggregation and both VEP versions read from the checkpoint; fails iff a lookup failed or the exit status is non-zero; records nothing |
| Ingestion.AccessionStep | eva_submission/eload_ingestion.py:68-74 | stores the lower-cased aggregation, stores the instance id only when accessioning is planned, then launches accessioning iff it is planned, with exactly that aggregation and instance id; fails iff accessioning is planned and exits non-zero |
| Ingestion.VariantLoadStep | eva_submission/eload_ingestion.py:76-79 | stores both VEP versions, then launches at most the variant load, and launches it when one study and a scientific name are found; the launched load carries exactly those versions; fails iff the study count is not one, the scientific name is missing, or the load exits non-zero |
| Ingestion.RunPipelines | eva_submission/eload_ingestion.py:65-79 | a missing aggregation starts nothing and writes nothing; otherwise accessioning comes before the variant load, the launches are a prefix of the planned ones and all of them on success; a failed accession launches no variant load; it succeeds iff an aggregation is given and every planned pipeline succeeds; only the paths of the planned tasks change |
| Ingestion.MetadataStep | eva_submission/eload_ingestion.py:63-64 | the ENA load runs iff it is planned; only then is `ena_load` written, and it fails iff the load failed |
| Ingestion.RunTasks | eva_submission/eload_ingestion.py:60-79 | launches follow the fixed task order: a prefix of the planned launches, and all of them on success; a failed ENA load launches nothing after it, a missing aggregation launches no pipeline, and a failed accession launches no variant load; it succeeds iff every planned task succeeds (exit statuses, an aggregation for the pipelines, one study and a scientific name for the load); only planned tasks write their paths; the ENA outcome is recorded iff planned; `needs_merge` follows the lower-cased aggregation; a run of only `variant_load` launches the load without consulting accessioning |
| Ingestion.PassGates | eva_submission/eload_ingestion.py:56-58 | the ingestion date is written before either gate; both gates pass iff brokering is done and the resolved database exists; a failed brokering check raises that error and writes only the date, never reaching the database check; the resolved name and its existence are recorded; nothing is launched |
| Ingestion.Ingest | eva_submission/eload_ingestion.py:47-79 | the date is always recorded and only `ingest`'s own paths change; success implies both gates passed; a failed gate launches nothing and leaves `ena_load` as it was; launches are a prefix of the planned order, and complete on success; the run succeeds iff both gates pass and every planned task succeeds; once the gates pass, a failed task or a missing aggregation stops every later one |
| ExtReference.FindDbxref | bin/add_ext_reference.py:44-50 | the lookup finds nothing iff no row has this `(db, id)`, and otherwise gives the id of the first such row |
| ExtReference.FindDbxrefAppend | bin/add_ext_reference.py:61-67 | rows inserted after an existing match do not change what the lookup returns |
| ExtReference.InsertDbxref | bin/add_ext_reference.py:63-66 | the insert appends one `publication`/`project` row with the next generated id and keeps the ids valid |
| ExtReference.AddExternalReference | bin/add_ext_reference.py:60-73 | earlier rows are kept; at most one `dbxref` row is added, and only for this reference; an existing usable row is reused; at most one link is added, and only when the project is not already linked to that id: the link joins this project to the reference's id; success iff the reference's row exists and is linked to the project; on valid tables it always succeeds; with the first matching row carrying id 0, a duplicate row is inserted and the assertion fails |
| ExtReference.AddExternalReferenceIdempotent | bin/add_ext_reference.py:60-73 | a second call with the same arguments adds no `dbxref` row and no `project_dbxref` link, and succeeds |
| ExtReference.Curie | bin/add_ext_reference.py:116 | the compact identifier is the database name, `:`, then the identifier |
| ExtReference.CurieRoundTrip | bin/add_ext_reference.py:116 | a database name without `:` and its identifier can be split back out of the compact identifier |
| ExtReference.CurieExists | bin/add_ext_reference.py:76-87 | true iff some resolved resource answers ok; resources are probed in order and probing stops at the first ok; with none ok (an empty list included) every resource is probed and the answer is false |
| ExtReference.AddExtReferenceCommand | bin/add_ext_reference.py:90-122 | a project missing from EVAPRO, or missing or private in ENA, exits 1 and inserts nothing; an unresolvable reference exits 0 and inserts nothing; otherwise the tables are those of the add, and the command exits 0 iff the add succeeded |

## Left out

- I/O is abstracted: subprocess and Nextflow/perl invocation, command-line strings, `NXF_OPTS`, YAML dumping of the job configurations and the property templates. The model keeps only the launch and its exit status.
- Database connections, SQL text, credential parsing from the Maven settings file, `get_mongo_creds`, `get_pg_creds` and `get_pg_conn` are left out. The answers of EVAPRO and Mongo are parameters (`Environment`).
- `insert_new_assembly_and_taxonomy` is not part of this model. It is assumed to return without raising, so an explicit database name is used unchanged. If it raised, `database.db_name` would not be recorded, and the model does not cover that case.
- `create_nextflow_temp_output_directory` is not part of this model. The temporary work directory of each pipeline is not represented.
- `get_study_name`'s query is a parameter: the list of titles EVAPRO returns for the project.
- File copying in `setup_project_dir` and `copy_from_ftp` are left out because they are filesystem effects. So are the spreadsheet reader, NCBI/taxonomy lookups and `detect_all`. The per-analysis accession sets and the taxonomy id are inputs of `DetectMetadataAttributes`.
- HTTP calls, `@retry` back-off, logging, argparse and the global `cfg` are left out. `cfg` values are parameters. The EVAPRO and ENA existence checks of `main` are booleans.
- Python's Unicode `lower()` and `split()` are modelled on ASCII only: letters A-Z, and whitespace 9-13, 28-31 and 32. Glob ordering is the given listing order.
- Ingestion.NewIngestion: assumes the projects directory is already absolute and the accession is one path component (no `/`, not absolute). The VCF mapping only has to be a mapping; its entries and their `index` keys are not inspected because they are only used for copying.
- Ingestion.Ingest: the database name, the ENA outcome, the conditional writes, `needs_merge` and the variant-load-only case are stated on `PassGates` and `RunTasks`, which `Ingest` composes, rather than repeated on `Ingest`. `Ingest` itself states the success condition and that a failed task stops the later ones.
- ExtReference.AddExternalReference: the link lookup reads `evapro.project_dbxref` (bin/add_ext_reference.py:54), but the link insert writes the unqualified `project_dbxref` (line 70). The model treats both as one table, so it assumes the connection's schema search path resolves the unqualified name to `evapro`. Otherwise the insert would fail or land in another table, line 69 would never see the link, and the idempotence lemma would not hold.
- `ingest` reads `self.now` (eva_submission/eload_ingestion.py:56) and `load_from_ena` reads `self.eload_num` (line 152). No class in the modelled files sets either one. The model assumes that code outside this model supplies them, as the current time (`Environment.now`) and the submission number (`Eload.number`). The `AttributeError` they would otherwise raise is not modelled.
- ExtReference.FindDbxref: takes the first matching row in insertion order. The `SELECT` at bin/add_ext_reference.py:47 has no `ORDER BY`, so the database may return the rows in another order. The claim about a row with id 0 (a duplicate insert, then a failed assertion) holds only for insertion order. A database that returns the new row first would pass the assertion.
- `os.makedirs(..., exist_ok=True)` raises `FileExistsError` when a regular file already sits at one of the paths. The filesystem is modelled as a set of directories only, so that error is not modelled.
- Checkpoint paths are flat key paths. A query of a prefix of a stored path (reading a whole nested section) is not modelled.
- Submission numbers are non-negative integers.

## Findings

| source | as written | input that shows it | evidently intended | confidence | as-written member | corrected member |
|---|---|---|---|---|---|---|
| eva_submission/eload_submission.py:88-97 | with no analysis rows, the loop never binds `reference_txt`; the error branch at line 97 formats it and raises `UnboundLocalError` before the taxonomy id is recorded | a spreadsheet with no analysis rows | log the missing assembly and go on to record the taxonomy id, as the other branches do | not executed; medium | Submission.DetectMetadataAttributesAsWritten, Submission.NoAnalysisLosesTaxonomy | Submission.DetectMetadataAttributes |

=== FILE: checkpoint.dfy ===
/**
 The per-submission checkpoint document (`EloadConfig`): a hierarchical YAML mapping, addressed
 here by the full key path of each stored fact.
 */
module Checkpoint {

  /** The values the program stores: YAML scalars, lists of paths and nested mappings. */
  datatype Value =
    | Null
    | Str(s: string)
    | Bool(b: bool)
    | Int(i: int)
    | StrList(items: seq<string>)
    | Dict(entries: map<string, Value>)

  type Key = seq<string>

  type Document = map<Key, Value>

  /** `query(*path)`: the stored value, or `None` for a path never written. */
  function Query(d: Document, path: Key): Value {
    if path in d then d[path] else Null
  }

  /** `set(*path, value=v)`. */
  function Set(d: Document, path: Key, v: Value): Document {
    d[path := v]
  }

  /** Reading a path back returns what was written there, and every other path reads as before. */
  lemma SetThenQuery(d: Document, path: Key, v: Value)
    ensures Query(Set(d, path, v), path) == v
    ensures forall q :: q != path ==> Query(Set(d, path, v), q) == Query(d, q)
  {
  }

  /** `d2` differs from `d1` at most on the paths in `written`. */
  ghost predicate UnchangedExcept(d1: Document, d2: Document, written: set<Key>) {
    forall q {:trigger Query(d2, q)} :: q !in written ==> Query(d2, q) == Query(d1, q)
  }

  /** Two changes confined to `w1` and to `w2` together change at most the paths of `w1 + w2`. */
  lemma UnchangedExceptCompose(d1: Document, d2: Document, d3: Document, w1: set<Key>, w2: set<Key>, w: set<Key>)
    requires UnchangedExcept(d1, d2, w1) && UnchangedExcept(d2, d3, w2) && w1 + w2 <= w
    ensures UnchangedExcept(d1, d3, w)
  {
    forall q | q !in w ensures Query(d3, q) == Query(d1, q) {
      assert Query(d3, q) == Query(d2, q);
    }
  }

  /** A change confined to `w1` is confined to any larger set of paths. */
  lemma UnchangedExceptWiden(d1: Document, d2: Document, w1: set<Key>, w: set<Key>)
    requires UnchangedExcept(d1, d2, w1) && w1 <= w
    ensures UnchangedExcept(d1, d2, w)
  {
    forall q | q !in w ensures Query(d2, q) == Query(d1, q) {
      assert q !in w1;
    }
  }
}

=== FILE: ext_reference.dfy ===
/**
 Linking a project to an external reference (`bin/add_ext_reference.py`): a get-or-insert over
 the EVAPRO tables `dbxref` and `project_dbxref`, the first-success probe of the resources
 identifiers.org resolves a compact identifier to, and the checks `main` makes before linking.
 The tables are values; database round trips and HTTP answers are inputs.
 */
module ExtReference {
  import opened Results

  /** A row of `evapro.dbxref`; `dbxrefId` is generated by the table on insert. */
  datatype DbxrefRow = DbxrefRow(dbxrefId: int, db: string, ident: string, linkType: string, sourceObject: string)

  /** A row of `project_dbxref`. */
  datatype ProjectLink = ProjectLink(projectAccession: string, dbxrefId: int)

  /**
   The two tables, each in insertion order (a table may hold the same link twice). The order of
   `dbxref` decides the row a lookup returns first; `nextId` is the next value of the table's id
   sequence.
   */
  datatype Evapro = Evapro(dbxref: seq<DbxrefRow>, projectDbxref: seq<ProjectLink>, nextId: int)

  /** The `AssertionError` raised when no usable id exists after the insert. */
  datatype ExtRefError = CreationFailed(db: string, ident: string)

  /**
   The tables after `add_external_reference_to_evapro`, and the exception it ended with. Each
   insert commits on its own, so the tables carry what was inserted even when the call fails.
   */
  datatype Applied = Applied(store: Evapro, failure: Option<ExtRefError>)

  predicate Names(row: DbxrefRow, db: string, ident: string) {
    row.db == db && row.ident == ident
  }

  /** Ids handed out by the sequence are positive and below its next value. */
  predicate Valid(s: Evapro) {
    && s.nextId >= 1
    && (forall i :: 0 <= i < |s.dbxref| ==> 1 <= s.dbxref[i].dbxrefId < s.nextId)
  }

  /** `_get_dbxref_id`: the id of the first row for `(db, ident)`, or `None` when there is none. */
  function FindDbxref(rows: seq<DbxrefRow>, db: string, ident: string): (r: Option<int>)
    ensures r.None? <==> forall i :: 0 <= i < |rows| ==> !Names(rows[i], db, ident)
    ensures r.Some? ==> exists i :: 0 <= i < |rows| && Names(rows[i], db, ident) && rows[i].dbxrefId == r.value
                           && forall j :: 0 <= j < i ==> !Names(rows[j], db, ident)
    decreases |rows|
  {
    if rows == [] then None
    else if Names(rows[0], db, ident) then Some(rows[0].dbxrefId)
    else
      var r := FindDbxref(rows[1..], db, ident);
      assert forall i :: 1 <= i < |rows| ==> rows[i] == rows[1..][i - 1];
      r
  }

  /** Appending rows after the first match does not change what a lookup returns. */
  lemma {:induction false} FindDbxrefAppend(rows: seq<DbxrefRow>, more: seq<DbxrefRow>, db: string, ident: string)
    ensures FindDbxref(rows, db, ident).Some? ==> FindDbxref(rows + more, db, ident) == FindDbxref(rows, db, ident)
    ensures FindDbxref(rows, db, ident).None? ==> FindDbxref(rows + more, db, ident) == FindDbxref(more, db, ident)
    decreases |rows|
  {
    if rows == [] {
      assert rows + more == more;
    } else {
      assert (rows + more)[0] == rows[0];
      assert (rows + more)[1..] == rows[1..] + more;
      FindDbxrefAppend(rows[1..], more, db, ident);
    }
  }

  /** `if not dbxref_id`: `None` and the id 0 both count as missing. */
  predicate Truthy(id: Option<int>) {
    id.Some? && id.value != 0
  }

  /** `INSERT into evapro.dbxref (db, id, link_type, source_object)`: a new publication row for a project. */
  function InsertDbxref(s: Evapro, db: string, ident: string): (r: Evapro)
    ensures r.dbxref == s.dbxref + [DbxrefRow(s.nextId, db, ident, "publication", "project")]
    ensures r.projectDbxref == s.projectDbxref && r.nextId == s.nextId + 1
    ensures Valid(s) ==> Valid(r)
  {
    Evapro(s.dbxref + [DbxrefRow(s.nextId, db, ident, "publication", "project")], s.projectDbxref, s.nextId + 1)
  }

  /**
   `add_external_reference_to_evapro`: looks the reference up and inserts it when the lookup
   finds no usable id, looks it up again, fails unless that id is usable, and links the project
   to it unless `_get_project_dbxref_id` already finds the link.
   */
  function AddExternalReference(s: Evapro, project: string, db: string, ident: string): (r: Applied)
    ensures s.dbxref <= r.store.dbxref && |r.store.dbxref| <= |s.dbxref| + 1
    ensures forall i :: |s.dbxref| <= i < |r.store.dbxref| ==>
              r.store.dbxref[i] == DbxrefRow(s.nextId, db, ident, "publication", "project")
    ensures Truthy(FindDbxref(s.dbxref, db, ident)) ==> r.store.dbxref == s.dbxref && r.store.nextId == s.nextId
    ensures s.projectDbxref <= r.store.projectDbxref && |r.store.projectDbxref| <= |s.projectDbxref| + 1
    ensures forall i :: |s.projectDbxref| <= i < |r.store.projectDbxref| ==>
              && r.failure.None?
              && FindDbxref(r.store.dbxref, db, ident).Some?
              && r.store.projectDbxref[i] == ProjectLink(project, FindDbxref(r.store.dbxref, db, ident).value)
              && r.store.projectDbxref[i] !in s.projectDbxref
    ensures r.failure.None? <==>
              Truthy(FindDbxref(r.store.dbxref, db, ident))
              && ProjectLink(project, FindDbxref(r.store.dbxref, db, ident).value) in r.store.projectDbxref
    ensures FindDbxref(s.dbxref, db, ident) == Some(0) ==>
              r.failure == Some(CreationFailed(db, ident)) && |r.store.dbxref| == |s.dbxref| + 1
    ensures Valid(s) ==> Valid(r.store) && r.failure.None?
  {
    var found := FindDbxref(s.dbxref, db, ident);
    var inserted := if Truthy(found) then s else InsertDbxref(s, db, ident);
    var id := if Truthy(found) then found else FindDbxref(inserted.dbxref, db, ident);
    FindDbxrefAppend(s.dbxref, [DbxrefRow(s.nextId, db, ident, "publication", "project")], db, ident);
    if !Truthy(id) then Applied(inserted, Some(CreationFailed(db, ident)))
    else if ProjectLink(project, id.value) in inserted.projectDbxref then Applied(inserted, None)
    else
      Applied(inserted.(projectDbxref := inserted.projectDbxref + [ProjectLink(project, id.value)]), None)
  }

  /**
   Adding the same reference to the same project a second time changes nothing and succeeds: no
   second `dbxref` row and no second `project_dbxref` link.
   */
  lemma AddExternalReferenceIdempotent(s: Evapro, project: string, db: string, ident: string)
    requires Valid(s)
    ensures var once := AddExternalReference(s, project, db, ident);
            AddExternalReference(once.store, project, db, ident) == Applied(once.store, None)
  {
    var once := AddExternalReference(s, project, db, ident);
    var id := FindDbxref(once.store.dbxref, db, ident);
    assert Truthy(id) && ProjectLink(project, id.value) in once.store.projectDbxref;
  }

  /** The compact identifier looked up at identifiers.org. */
  function Curie(db: string, ident: string): (c: string)
    ensures |c| == |db| + 1 + |ident| && c[|db|] == ':'
    ensures c[..|db|] == db && c[|db| + 1..] == ident
  {
    db + ":" + ident
  }

  /** The prefix before the first `:` and the rest after it. */
  function SplitCurie(c: string): (r: (string, string))
    ensures ':' !in r.0
    ensures ':' in c ==> c == r.0 + ":" + r.1
    ensures ':' !in c ==> r == (c, "")
    decreases |c|
  {
    if c == [] then ("", "")
    else if c[0] == ':' then ("", c[1..])
    else
      var rest := SplitCurie(c[1..]);
      assert c == [c[0]] + c[1..];
      assert ':' !in c ==> ':' !in c[1..];
      ([c[0]] + rest.0, rest.1)
  }

  /** A database name without `:` is recovered from the compact identifier, and so is the identifier. */
  lemma {:induction false} CurieRoundTrip(db: string, ident: string)
    requires ':' !in db
    ensures SplitCurie(Curie(db, ident)) == (db, ident)
    decreases |db|
  {
    if db == [] {
      assert Curie(db, ident) == [':'] + ident;
    } else {
      var c := Curie(db, ident);
      assert c[0] == db[0] && db[0] != ':';
      assert c[1..] == Curie(db[1..], ident);
      CurieRoundTrip(db[1..], ident);
      assert SplitCurie(c) == ([c[0]] + SplitCurie(c[1..]).0, SplitCurie(c[1..]).1);
      assert [db[0]] + db[1..] == db;
    }
  }

  /** One resource of the resolver's answer and whether a HEAD request to its URL answers ok. */
  datatype Resource = Resource(resolvedUrl: string, description: string, headOk: bool)

  /**
   `_curie_exist`: probes the resolved resources in order and stops at the first that answers
   ok. `probed` is how many were probed.
   */
  method CurieExists(resources: seq<Resource>) returns (found: bool, probed: nat)
    ensures found <==> exists i :: 0 <= i < |resources| && resources[i].headOk
    ensures probed <= |resources|
    ensures found ==> probed >= 1 && resources[probed - 1].headOk
    ensures forall i :: 0 <= i < probed - 1 ==> !resources[i].headOk
    ensures !found ==> probed == |resources|
  {
    probed := 0;
    while probed < |resources|
      invariant probed <= |resources|
      invariant forall i :: 0 <= i < probed ==> !resources[i].headOk
    {
      probed := probed + 1;
      if resources[probed - 1].headOk {
        return true, probed;
      }
    }
    return false, probed;
  }

  /**
   `main`, after its arguments and configuration are read: a project unknown to EVAPRO, or
   missing or private in ENA, exits with 1; a reference identifiers.org cannot resolve exits
   with 0 and inserts nothing; otherwise the reference is added. `resolve` is the resolver's
   answer for a compact identifier.
   */
  method AddExtReferenceCommand(s: Evapro, project: string, db: string, ident: string,
                                inEvapro: bool, inEna: bool, resolve: string -> seq<Resource>)
    returns (exit: Result<int, ExtRefError>, after: Evapro)
    ensures !inEvapro ==> exit == Ok(1) && after == s
    ensures inEvapro && !inEna ==> exit == Ok(1) && after == s
    ensures inEvapro && inEna && !(exists r :: r in resolve(Curie(db, ident)) && r.headOk) ==> exit == Ok(0) && after == s
    ensures inEvapro && inEna && (exists r :: r in resolve(Curie(db, ident)) && r.headOk) ==>
              && after == AddExternalReference(s, project, db, ident).store
              && (exit == Ok(0) <==> AddExternalReference(s, project, db, ident).failure.None?)
              && (exit.Err? ==> Some(exit.error) == AddExternalReference(s, project, db, ident).failure)
    ensures exit.Err? ==> !Valid(s)
  {
    if !inEvapro || !inEna {
      return Ok(1), s;
    }
    var resources := resolve(Curie(db, ident));
    var found, _ := CurieExists(resources);
    assert found <==> exists r :: r in resources && r.headOk by {
      if exists r :: r in resources && r.headOk {
        var r :| r in resources && r.headOk;
        var i :| 0 <= i < |resources| && resources[i] == r;
      }
    }
    if !found {
      return Ok(0), s;
    }
    var applied := AddExternalReference(s, project, db, ident);
    after := applied.store;
    if applied.failure.Some? {
      exit := Err(applied.failure.value);
    } else {
      exit := Ok(0);
    }
  }
}

=== FILE: ingestion.dfy ===
/**
 The ingestion workflow of one ELOAD (`EloadIngestion`): project folder set-up, the brokering and
 variant-database gates, and the three tasks run in their fixed order. Databases, the
 filesystem listing, the clock and the exit statuses of the external processes are inputs
 (`Environment`); `Ingest` returns the checkpoint as the write-through store leaves it, the
 processes it launched and the exception it ends with, if any.
 */
module Ingestion {
  import opened Results
  import opened Text
  import opened Paths
  import opened Checkpoint
  import opened Submission

  /** `project_dirs`: the folders of a project directory. */
  const ProjectDirs: map<string, Path> := map[
    "logs" := ["00_logs"],
    "valid" := ["30_eva_valid"],
    "transformed" := ["40_transformed"],
    "stats" := ["50_stats"],
    "annotation" := ["51_annotation"],
    "accessions" := ["52_accessions"],
    "public" := ["60_eva_public"],
    "external" := ["70_external_submissions"],
    "deprecated" := ["80_deprecated"]
  ]

  const MetadataLoadTask := "metadata_load"
  const AccessionTask := "accession"
  const VariantLoadTask := "variant_load"

  /** `all_tasks`, in the order they run. */
  const AllTasks: seq<string> := [MetadataLoadTask, AccessionTask, VariantLoadTask]

  const VcfFilesKey: Key := ["brokering", "vcf_files"]
  const ProjectKey: Key := ["brokering", "ena", "PROJECT"]
  const ScientificNameKey: Key := ["submission", "scientific_name"]
  const ProjectDirKey: Key := ["ingestion", "project_dir"]
  const IngestionDateKey: Key := ["ingestion", "ingestion_date"]
  const DbNameKey: Key := ["ingestion", "database", "db_name"]
  const DbExistsKey: Key := ["ingestion", "database", "exists"]
  const EnaLoadKey: Key := ["ingestion", "ena_load"]
  const AggregationKey: Key := ["ingestion", "aggregation"]
  const InstanceIdKey: Key := ["ingestion", "accession", "instance_id"]
  const VepVersionKey: Key := ["ingestion", "variant_load", "vep", "version"]
  const VepCacheVersionKey: Key := ["ingestion", "variant_load", "vep", "cache_version"]

  /** Every checkpoint path `ingest` may write. */
  const IngestWrites: set<Key> :=
    {IngestionDateKey, DbNameKey, DbExistsKey, EnaLoadKey, AggregationKey, InstanceIdKey, VepVersionKey, VepCacheVersionKey}

  /** The exceptions that end construction or ingestion. */
  datatype IngestionError =
    | NoBrokeredVcf                                     // ValueError: no brokered VCF files
    | NoProjectAccession                                // ValueError: no project accession
    | NoDatabaseFor(taxonomy: Value, assembly: Value)   // ValueError from `get_db_name`
    | DatabaseMissing(name: string)                     // ValueError from `check_variant_db`
    | CommandFailed(stage: string, exitCode: int)       // CalledProcessError re-raised
    | AggregationMissing                                // AttributeError: `None.lower()`
    | StudyCount(found: nat)                            // ValueError from `get_study_name`
    | NoScientificName                                  // AttributeError in `get_vep_species`
    | ProjectAccessionUnusable                          // TypeError: `Path(projects_dir, <not a str>)`
    | VcfFilesUnusable                                  // AttributeError: `<not a dict>.items()`

  /** A constructed `EloadIngestion`: the submission, its project accession and project directory. */
  datatype Ingestion = Ingestion(eload: Eload, projectAccession: Value, projectDir: Path)

  /** What the outside world answers during one run. */
  datatype Environment = Environment(
    now: string,                                  // `self.now`, stored as the ingestion date
    warehouseDbNames: map<(Value, Value), string>,  // EVAPRO: (assembly, taxonomy id) to database name
    mongoDatabases: seq<string>,                  // `list_database_names()` of the variant warehouse
    validListing: seq<string>,                    // entries of the project's valid folder
    studyTitles: seq<string>,                     // EVAPRO project titles for the project accession
    enaLoadExit: int,                             // exit status of the ENA metadata load
    accessionExit: int,                           // exit status of the accessioning pipeline
    variantLoadExit: int)                         // exit status of the variant load pipeline

  /**
   `accession_config`: the parameters handed to the accessioning pipeline. Its output folders
   are the `public` and `logs` folders of `projectDir` (`ProjectFolder`).
   */
  datatype AccessionContext = AccessionContext(
    validVcfs: seq<string>, projectAccession: Value, instanceId: Value, aggregation: Value, projectDir: Path)

  /**
   `load_config` and the inputs of the load job properties computed here. Its output folders
   are the `transformed`, `annotation`, `stats` and `logs` folders of `projectDir`.
   */
  datatype LoadContext = LoadContext(
    validVcfs: seq<string>, needsMerge: bool, projectAccession: Value, aggregation: Value,
    studyName: string, dbName: Value, vepSpecies: string, vepVersion: Value, vepCacheVersion: Value,
    projectDir: Path)

  /** One external process started by a run. */
  datatype Launch =
    | EnaLoad(projectAccession: Value, eloadNumber: nat)
    | AccessionRun(accession: AccessionContext)
    | VariantLoadRun(load: LoadContext)

  /** The outcome of a run: the checkpoint as written so far, the processes launched, the exception raised. */
  datatype Run = Run(checkpoint: Document, launched: seq<Launch>, failure: Option<IngestionError>)

  /** The three `do_*` decisions of `ingest`. */
  datatype Plan = Plan(metadataLoad: bool, accession: bool, variantLoad: bool)

  /** `if not tasks: tasks = all_tasks`, then membership of each task name; other names are ignored. */
  function PlanOf(tasks: seq<string>): (p: Plan)
    ensures tasks == [] ==> p == Plan(true, true, true)
    ensures tasks != [] ==> p == Plan(MetadataLoadTask in tasks, AccessionTask in tasks, VariantLoadTask in tasks)
  {
    var selected := if tasks == [] then AllTasks else tasks;
    Plan(MetadataLoadTask in selected, AccessionTask in selected, VariantLoadTask in selected)
  }

  /** Only which names are requested matters, not their order or repetition. */
  lemma PlanIgnoresOrder(t1: seq<string>, t2: seq<string>)
    requires forall x :: x in t1 <==> x in t2
    ensures PlanOf(t1) == PlanOf(t2)
  {
    assert t1 == [] <==> t2 == [] by {
      if t1 != [] { assert t1[0] in t2; }
      if t2 != [] { assert t2[0] in t1; }
    }
  }

  /** Position of a process in the fixed task order. */
  function Rank(l: Launch): nat {
    match l
    case EnaLoad(_, _) => 0
    case AccessionRun(_) => 1
    case VariantLoadRun(_) => 2
  }

  function Ranks(ls: seq<Launch>): seq<nat> {
    if ls == [] then [] else [Rank(ls[0])] + Ranks(ls[1..])
  }

  lemma {:induction false} RanksAppend(a: seq<Launch>, b: seq<Launch>)
    ensures Ranks(a + b) == Ranks(a) + Ranks(b)
    decreases |a|
  {
    if a == [] {
      assert a + b == b;
    } else {
      assert (a + b)[0] == a[0];
      assert (a + b)[1..] == a[1..] + b;
      RanksAppend(a[1..], b);
    }
  }

  lemma PrefixAppend(a: seq<nat>, b: seq<nat>, c: seq<nat>)
    requires b <= c
    ensures a + b <= a + c
  {
  }

  /** The processes a plan starts when nothing fails, by rank. */
  function PlannedRanks(p: Plan): seq<nat> {
    (if p.metadataLoad then [0] else []) + PipelineRanks(p)
  }

  /** The processes started after the metadata load when nothing fails, by rank. */
  function PipelineRanks(p: Plan): seq<nat> {
    (if p.accession then [1] else []) + (if p.variantLoad then [2] else [])
  }

  function ProjectFolder(ing: Ingestion, key: string): Path
    requires key in ProjectDirs
  {
    ing.projectDir + ProjectDirs[key]
  }

  /** `Path(projects_dir, accession)`: an empty accession names the projects directory itself. */
  function ProjectDirOf(projectsDir: Path, accession: string): (r: Path)
    ensures accession == "" ==> r == projectsDir
    ensures accession != "" ==> Within(r, projectsDir) && |r| == |projectsDir| + 1 && r[|projectsDir|] == accession
  {
    if accession == "" then projectsDir else projectsDir + [accession]
  }

  /** A constructed `EloadIngestion`, or the exception construction ends with, and the directories afterwards. */
  datatype Constructed = Constructed(fs: set<Path>, result: Result<Ingestion, IngestionError>)

  /**
   `EloadIngestion(n)`: the submission is constructed first, then `setup_project_dir` joins the
   project accession onto the projects directory (only a string can be joined), creates the
   project directory with every folder of `project_dirs`, iterates the brokered VCF mapping (only
   a mapping has `.items()`) and records the project directory in the checkpoint.
   */
  function NewIngestion(n: nat, eloadsDir: Path, projectsDir: Path, stored: Document, fs: set<Path>): (c: Constructed)
    ensures NewEload(n, eloadsDir, stored, fs).fs <= c.fs
    ensures c.result.Ok? <==> Query(stored, ProjectKey).Str? && Query(stored, VcfFilesKey).Dict?
    ensures !Query(stored, ProjectKey).Str? ==>
              c == Constructed(NewEload(n, eloadsDir, stored, fs).fs, Err(ProjectAccessionUnusable))
    ensures Query(stored, ProjectKey).Str? && !Query(stored, VcfFilesKey).Dict? ==> c.result == Err(VcfFilesUnusable)
    ensures Query(stored, ProjectKey).Str? ==>
              var dir := ProjectDirOf(projectsDir, Query(stored, ProjectKey).s);
              dir != [] ==> dir in c.fs && forall k :: k in ProjectDirs ==> dir + ProjectDirs[k] in c.fs
    ensures c.result.Ok? ==>
              var ing := c.result.value;
              && ing.eload.number == n && ing.eload.dir == EloadDir(eloadsDir, n)
              && ing.projectAccession == Query(stored, ProjectKey)
              && ing.projectDir == ProjectDirOf(projectsDir, Query(stored, ProjectKey).s)
              && Query(ing.eload.config, ProjectDirKey) == Str(PathString(ing.projectDir))
              && UnchangedExcept(stored, ing.eload.config, {ProjectDirKey})
              && CheckBrokeringDone(ing.eload.config, ing.projectAccession).None?
  {
    var created := NewEload(n, eloadsDir, stored, fs);
    match Query(stored, ProjectKey)
    case Str(accession) =>
      var dir := ProjectDirOf(projectsDir, accession);
      var made := EnsureLayout(created.fs, dir, ProjectDirs);
      if !Query(stored, VcfFilesKey).Dict? then Constructed(made, Err(VcfFilesUnusable))
      else
        var e := created.eload;
        var eload := Eload(e.number, e.id, e.dir, e.configPath, Set(e.config, ProjectDirKey, Str(PathString(dir))));
        Constructed(made, Ok(Ingestion(eload, Str(accession), dir)))
    case _ => Constructed(created.fs, Err(ProjectAccessionUnusable))
  }

  /**
   `valid_vcf_filenames`: the `*.vcf.gz` entries of the valid folder, as full paths. It uses
   `pathlib` globbing, so names starting with '.' are included.
   */
  function ValidVcfFilenames(ing: Ingestion, listing: seq<string>): (r: seq<string>)
    ensures forall x :: x in listing && EndsWith(x, ".vcf.gz") ==> PathString(ProjectFolder(ing, "valid")) + "/" + x in r
    ensures forall i :: 0 <= i < |r| ==>
              exists x :: x in listing && EndsWith(x, ".vcf.gz") && r[i] == PathString(ProjectFolder(ing, "valid")) + "/" + x
  {
    var names := MatchingNames(listing, ".vcf.gz", true);
    var r := InDir(ProjectFolder(ing, "valid"), names);
    assert forall x :: x in listing && EndsWith(x, ".vcf.gz") ==> PathString(ProjectFolder(ing, "valid")) + "/" + x in r by {
      forall x | x in listing && EndsWith(x, ".vcf.gz") ensures PathString(ProjectFolder(ing, "valid")) + "/" + x in r {
        var i :| 0 <= i < |names| && names[i] == x;
        assert r[i] == PathString(ProjectFolder(ing, "valid")) + "/" + x;
      }
    }
    assert forall i :: 0 <= i < |r| ==> names[i] in names;
    r
  }

  /** `get_vep_species`: the scientific name lower-cased, its words joined by '_'. */
  function VepSpeciesName(name: string): (r: string)
    ensures NoSpace(r) && NoUpper(r)
  {
    var words := Words(Lower(name));
    JoinKeepsClean('_', words);
    JoinWith('_', words)
  }

  /** Normalising an already normalised species name changes nothing. */
  lemma VepSpeciesNameIdempotent(name: string)
    ensures VepSpeciesName(VepSpeciesName(name)) == VepSpeciesName(name)
  {
    var r := VepSpeciesName(name);
    if r != [] {
      WordsOfOneWord(r);
    }
  }

  /** For a single-word name the species name is just the name lower-cased. */
  lemma VepSpeciesNameOfOneWord(name: string)
    requires name != [] && NoSpace(name)
    ensures VepSpeciesName(name) == Lower(name)
  {
    WordsOfOneWord(Lower(name));
  }

  /**
   A scientific name written as words separated by single spaces becomes those words
   lower-cased and joined by '_'.
   */
  lemma VepSpeciesNameOfWords(ws: seq<string>)
    requires forall k :: 0 <= k < |ws| ==> ws[k] != [] && NoSpace(ws[k])
    ensures VepSpeciesName(JoinWith(' ', ws)) == JoinWith('_', LowerEach(ws))
  {
    LowerJoin(' ', ws);
    LowerEachKeepsWords(ws);
    WordsOfJoin(LowerEach(ws));
  }

  /** `get_vep_species` on the checkpoint: a missing or non-string name raises. */
  function GetVepSpecies(d: Document): (r: Option<string>)
    ensures r.Some? <==> Query(d, ScientificNameKey).Str?
    ensures r.Some? ==> r.value == VepSpeciesName(Query(d, ScientificNameKey).s)
  {
    match Query(d, ScientificNameKey)
    case Str(s) => Some(VepSpeciesName(s))
    case _ => None
  }

  /** The `needs_merge` rule: the stored aggregation is exactly `'none'`. */
  function NeedsMerge(d: Document): bool {
    Query(d, AggregationKey) == Str("none")
  }

  /**
   The `needs_merge` rule as `ingest` feeds it: after the aggregation is stored lower-cased, a
   merge is needed iff it reads `none` in any capitalisation; a missing or non-string aggregation
   never asks for one, and no write to another path changes the answer.
   */
  lemma NeedsMergeRule(d: Document, aggregation: string, q: Key, v: Value)
    requires q != AggregationKey
    ensures NeedsMerge(Set(d, AggregationKey, Str(Lower(aggregation)))) <==> Lower(aggregation) == "none"
    ensures !Query(d, AggregationKey).Str? ==> !NeedsMerge(d)
    ensures NeedsMerge(Set(d, q, v)) == NeedsMerge(d)
  {
  }

  /** `check_brokering_done`: the VCF files first, then, only if they are there, the project accession. */
  function CheckBrokeringDone(d: Document, projectAccession: Value): (r: Option<IngestionError>)
    ensures r.None? <==> Query(d, VcfFilesKey) != Null && projectAccession != Null
    ensures Query(d, VcfFilesKey) == Null ==> r == Some(NoBrokeredVcf)
    ensures Query(d, VcfFilesKey) != Null && projectAccession == Null ==> r == Some(NoProjectAccession)
  {
    if Query(d, VcfFilesKey) == Null then Some(NoBrokeredVcf)
    else if projectAccession == Null then Some(NoProjectAccession)
    else None
  }

  /** `get_db_name`: the EVAPRO lookup for the submission's assembly and taxonomy; an empty answer raises. */
  function GetDbName(d: Document, warehouse: map<(Value, Value), string>): (r: Result<string, IngestionError>)
    ensures var key := (Query(d, AssemblyKey), Query(d, TaxonomyKey));
            && (r.Ok? <==> key in warehouse && warehouse[key] != "")
            && (r.Ok? ==> r.value == warehouse[key])
            && (r.Err? ==> r.error == NoDatabaseFor(key.1, key.0))
  {
    var assembly := Query(d, AssemblyKey);
    var taxonomy := Query(d, TaxonomyKey);
    var found := if (assembly, taxonomy) in warehouse then warehouse[(assembly, taxonomy)] else "";
    if found == "" then Err(NoDatabaseFor(taxonomy, assembly)) else Ok(found)
  }

  /** The database name `check_variant_db` settles on: an explicit non-empty name as given, else the lookup. */
  function ResolveDbName(d: Document, dbName: Option<string>, warehouse: map<(Value, Value), string>)
    : (r: Result<string, IngestionError>)
    ensures dbName.Some? && dbName.value != "" ==> r == Ok(dbName.value)
    ensures !(dbName.Some? && dbName.value != "") ==> r == GetDbName(d, warehouse)
    ensures r.Ok? ==> r.value != ""
  {
    if dbName.Some? && dbName.value != "" then Ok(dbName.value) else GetDbName(d, warehouse)
  }

  /**
   `check_variant_db`: records the resolved name, then whether the variant warehouse holds a
   database of exactly that name, and raises when it does not.
   */
  function CheckVariantDb(d: Document, dbName: Option<string>, warehouse: map<(Value, Value), string>, databases: seq<string>)
    : (r: Run)
    ensures r.launched == []
    ensures ResolveDbName(d, dbName, warehouse).Err? ==>
              r.checkpoint == d && r.failure == Some(ResolveDbName(d, dbName, warehouse).error)
    ensures ResolveDbName(d, dbName, warehouse).Ok? ==>
              var name := ResolveDbName(d, dbName, warehouse).value;
              && Query(r.checkpoint, DbNameKey) == Str(name)
              && Query(r.checkpoint, DbExistsKey) == Bool(name in databases)
              && (r.failure.None? <==> name in databases)
              && (name !in databases ==> r.failure == Some(DatabaseMissing(name)))
    ensures UnchangedExcept(d, r.checkpoint, {DbNameKey, DbExistsKey})
  {
    match ResolveDbName(d, dbName, warehouse)
    case Err(e) => Run(d, [], Some(e))
    case Ok(name) =>
      var named := Set(d, DbNameKey, Str(name));
      if name in databases then Run(Set(named, DbExistsKey, Bool(true)), [], None)
      else Run(Set(named, DbExistsKey, Bool(false)), [], Some(DatabaseMissing(name)))
  }

  /** Both gates of `ingest` pass: brokering is done and the resolved database exists. */
  predicate PreconditionsHold(ing: Ingestion, env: Environment, dbName: Option<string>) {
    && CheckBrokeringDone(ing.eload.config, ing.projectAccession).None?
    && ResolveDbName(ing.eload.config, dbName, env.warehouseDbNames).Ok?
    && ResolveDbName(ing.eload.config, dbName, env.warehouseDbNames).value in env.mongoDatabases
  }

  /** `load_from_ena`: the only task that records its outcome, `'success'` or `'failure'`. */
  method LoadFromEna(ing: Ingestion, d: Document, exitCode: int) returns (r: Run)
    ensures r.launched == [EnaLoad(ing.projectAccession, ing.eload.number)]
    ensures r.failure.None? <==> exitCode == 0
    ensures r.failure.Some? ==> r.failure == Some(CommandFailed(MetadataLoadTask, exitCode))
    ensures Query(r.checkpoint, EnaLoadKey) == Str(if exitCode == 0 then "success" else "failure")
    ensures forall q :: q != EnaLoadKey ==> Query(r.checkpoint, q) == Query(d, q)
  {
    var launch := EnaLoad(ing.projectAccession, ing.eload.number);
    if exitCode == 0 {
      r := Run(Set(d, EnaLoadKey, Str("success")), [launch], None);
    } else {
      r := Run(Set(d, EnaLoadKey, Str("failure")), [launch], Some(CommandFailed(MetadataLoadTask, exitCode)));
    }
  }

  /** `run_accession_workflow`: starts the pipeline and re-raises its failure, recording nothing. */
  function RunAccessionWorkflow(ing: Ingestion, env: Environment, d: Document): (r: Run)
    ensures r.checkpoint == d
    ensures |r.launched| == 1 && r.launched[0].AccessionRun?
    ensures r.launched[0].accession.instanceId == Query(d, InstanceIdKey)
    ensures r.launched[0].accession.aggregation == Query(d, AggregationKey)
    ensures r.failure.None? <==> env.accessionExit == 0
  {
    var context := AccessionContext(
      ValidVcfFilenames(ing, env.validListing), ing.projectAccession, Query(d, InstanceIdKey),
      Query(d, AggregationKey), ing.projectDir);
    Run(d, [AccessionRun(context)],
        if env.accessionExit == 0 then None else Some(CommandFailed(AccessionTask, env.accessionExit)))
  }

  /**
   `run_variant_load_workflow`: the study title and the VEP species are looked up before the
   pipeline starts, so either failing starts nothing; the pipeline's failure is re-raised and
   nothing is recorded.
   */
  function RunVariantLoadWorkflow(ing: Ingestion, env: Environment, d: Document): (r: Run)
    ensures r.checkpoint == d
    ensures |env.studyTitles| != 1 ==> r.launched == [] && r.failure == Some(StudyCount(|env.studyTitles|))
    ensures |env.studyTitles| == 1 && GetVepSpecies(d).None? ==> r.launched == [] && r.failure == Some(NoScientificName)
    ensures |env.studyTitles| == 1 && GetVepSpecies(d).Some? ==>
              |r.launched| == 1 && r.launched[0].VariantLoadRun?
              && r.launched[0].load.needsMerge == NeedsMerge(d)
              && r.launched[0].load.dbName == Query(d, DbNameKey)
              && r.launched[0].load.vepSpecies == GetVepSpecies(d).value
              && r.launched[0].load.aggregation == Query(d, AggregationKey)
              && r.launched[0].load.vepVersion == Query(d, VepVersionKey)
              && r.launched[0].load.vepCacheVersion == Query(d, VepCacheVersionKey)
    ensures r.failure.None? <==> |env.studyTitles| == 1 && GetVepSpecies(d).Some? && env.variantLoadExit == 0
  {
    if |env.studyTitles| != 1 then Run(d, [], Some(StudyCount(|env.studyTitles|)))
    else match GetVepSpecies(d)
      case None => Run(d, [], Some(NoScientificName))
      case Some(species) =>
        var context := LoadContext(
          ValidVcfFilenames(ing, env.validListing), NeedsMerge(d), ing.projectAccession,
          Query(d, AggregationKey), env.studyTitles[0], Query(d, DbNameKey), species,
          Query(d, VepVersionKey), Query(d, VepCacheVersionKey), ing.projectDir);
        Run(d, [VariantLoadRun(context)],
            if env.variantLoadExit == 0 then None else Some(CommandFailed(VariantLoadTask, env.variantLoadExit)))
  }

  /** The variant load runs to completion: one study, a stored scientific name, exit status 0. */
  predicate VariantLoadSucceeds(env: Environment, d: Document) {
    |env.studyTitles| == 1 && Query(d, ScientificNameKey).Str? && env.variantLoadExit == 0
  }

  /** Every planned pipeline after the metadata load succeeds, given the aggregation type. */
  predicate PipelinesSucceed(plan: Plan, env: Environment, d: Document, aggregation: Option<string>) {
    && aggregation.Some?
    && (plan.accession ==> env.accessionExit == 0)
    && (plan.variantLoad ==> VariantLoadSucceeds(env, d))
  }

  /** Every planned task succeeds, so `ingest` returns without raising once its gates pass. */
  predicate TasksSucceed(plan: Plan, env: Environment, d: Document, aggregation: Option<string>) {
    && (plan.metadataLoad ==> env.enaLoadExit == 0)
    && (plan.accession || plan.variantLoad ==> PipelinesSucceed(plan, env, d, aggregation))
  }

  /**
   A failed task stops the run: a failed ENA load launches nothing after it, a missing
   aggregation launches no pipeline, and a failed accessioning launches no variant load.
   */
  predicate StopsAtFirstFailure(plan: Plan, env: Environment, aggregation: Option<string>, launched: seq<Launch>) {
    && (plan.metadataLoad && env.enaLoadExit != 0 ==> Ranks(launched) == [0])
    && ((plan.metadataLoad ==> env.enaLoadExit == 0) && aggregation.None? ==>
          Ranks(launched) == (if plan.metadataLoad then [0] else []))
    && ((plan.metadataLoad ==> env.enaLoadExit == 0) && aggregation.Some? && plan.accession && env.accessionExit != 0 ==>
          Ranks(launched) == (if plan.metadataLoad then [0] else []) + [1])
  }

  /** The checkpoint paths the accession and variant-load part may write under a plan. */
  function PipelineWrites(plan: Plan): set<Key> {
    {AggregationKey} + (if plan.accession then {InstanceIdKey} else {})
    + (if plan.variantLoad then {VepVersionKey, VepCacheVersionKey} else {})
  }

  /** The checkpoint path the metadata load writes when it is planned. */
  function MetadataWrites(plan: Plan): set<Key> {
    if plan.metadataLoad then {EnaLoadKey} else {}
  }

  /** The checkpoint paths the planned tasks may write. */
  function TaskWrites(plan: Plan): set<Key> {
    MetadataWrites(plan)
    + (if plan.accession || plan.variantLoad then PipelineWrites(plan) else {})
  }

  /** Stores the lower-cased aggregation and, when planned, the instance id, then runs accessioning. */
  method AccessionStep(ing: Ingestion, env: Environment, d: Document, plan: Plan, aggregation: string, instanceId: Value)
    returns (r: Run)
    ensures Ranks(r.launched) == (if plan.accession then [1] else [])
    ensures forall i :: 0 <= i < |r.launched| ==>
              && r.launched[i].AccessionRun?
              && r.launched[i].accession.instanceId == instanceId
              && r.launched[i].accession.aggregation == Str(Lower(aggregation))
    ensures r.failure.None? <==> !plan.accession || env.accessionExit == 0
    ensures Query(r.checkpoint, AggregationKey) == Str(Lower(aggregation))
    ensures plan.accession ==> Query(r.checkpoint, InstanceIdKey) == instanceId
    ensures forall q :: q != AggregationKey && (plan.accession ==> q != InstanceIdKey) ==> Query(r.checkpoint, q) == Query(d, q)
  {
    var aggregated := Set(d, AggregationKey, Str(Lower(aggregation)));
    if plan.accession {
      r := RunAccessionWorkflow(ing, env, Set(aggregated, InstanceIdKey, instanceId));
    } else {
      r := Run(aggregated, [], None);
    }
  }

  /** Stores the VEP versions, then runs the variant load. */
  method VariantLoadStep(ing: Ingestion, env: Environment, d: Document, vepVersion: Value, vepCacheVersion: Value)
    returns (r: Run)
    ensures Ranks(r.launched) <= [2]
    ensures r.failure.None? ==> Ranks(r.launched) == [2]
    ensures forall i :: 0 <= i < |r.launched| ==>
              && r.launched[i].VariantLoadRun?
              && r.launched[i].load.needsMerge == NeedsMerge(d)
              && r.launched[i].load.aggregation == Query(d, AggregationKey)
              && r.launched[i].load.vepVersion == vepVersion
              && r.launched[i].load.vepCacheVersion == vepCacheVersion
    ensures |env.studyTitles| == 1 && Query(d, ScientificNameKey).Str? ==> |r.launched| == 1
    ensures r.failure.None? <==> |env.studyTitles| == 1 && Query(d, ScientificNameKey).Str? && env.variantLoadExit == 0
    ensures Query(r.checkpoint, VepVersionKey) == vepVersion && Query(r.checkpoint, VepCacheVersionKey) == vepCacheVersion
    ensures forall q :: q != VepVersionKey && q != VepCacheVersionKey ==> Query(r.checkpoint, q) == Query(d, q)
  {
    var versioned := Set(Set(d, VepVersionKey, vepVersion), VepCacheVersionKey, vepCacheVersion);
    assert NeedsMerge(versioned) == NeedsMerge(d);
    assert Query(versioned, ScientificNameKey) == Query(d, ScientificNameKey);
    r := RunVariantLoadWorkflow(ing, env, versioned);
  }

  /**
   The accession and variant-load part of `ingest`, once the metadata load has not failed: the
   aggregation type is needed first, and a missing one (`None.lower()`) starts nothing.
   */
  method RunPipelines(ing: Ingestion, env: Environment, d: Document, plan: Plan, aggregation: Option<string>,
                      instanceId: Value, vepVersion: Value, vepCacheVersion: Value) returns (r: Run)
    requires plan.accession || plan.variantLoad
    ensures aggregation.None? ==> r == Run(d, [], Some(AggregationMissing))
    ensures Ranks(r.launched) <= PipelineRanks(plan)
    ensures r.failure.None? ==> Ranks(r.launched) == PipelineRanks(plan)
    ensures UnchangedExcept(d, r.checkpoint, PipelineWrites(plan))
    ensures aggregation.Some? ==> Query(r.checkpoint, AggregationKey) == Str(Lower(aggregation.value))
    ensures aggregation.Some? && plan.accession ==> Query(r.checkpoint, InstanceIdKey) == instanceId
    ensures forall i :: 0 <= i < |r.launched| && r.launched[i].VariantLoadRun? ==>
              aggregation.Some? && r.launched[i].load.needsMerge == (Lower(aggregation.value) == "none")
    ensures aggregation.Some? && !plan.accession && |env.studyTitles| == 1 && Query(d, ScientificNameKey).Str? ==>
              |r.launched| == 1 && r.launched[0].VariantLoadRun?
    ensures aggregation.Some? && plan.accession && env.accessionExit != 0 ==> Ranks(r.launched) == [1]
    ensures r.failure.None? <==> PipelinesSucceed(plan, env, d, aggregation)
  {
    if aggregation.None? {
      return Run(d, [], Some(AggregationMissing));
    }
    var acc := AccessionStep(ing, env, d, plan, aggregation.value, instanceId);
    if acc.failure.Some? || !plan.variantLoad {
      return acc;
    }
    var vl := VariantLoadStep(ing, env, acc.checkpoint, vepVersion, vepCacheVersion);
    RanksAppend(acc.launched, vl.launched);
    PrefixAppend(Ranks(acc.launched), Ranks(vl.launched), [2]);
    r := Run(vl.checkpoint, acc.launched + vl.launched, vl.failure);
    assert NeedsMerge(acc.checkpoint) == (Lower(aggregation.value) == "none");
    forall i | 0 <= i < |r.launched| && r.launched[i].VariantLoadRun?
      ensures r.launched[i].load.needsMerge == (Lower(aggregation.value) == "none")
    {
      if i >= |acc.launched| {
        assert r.launched[i] == vl.launched[i - |acc.launched|];
      }
    }
  }

  /** The metadata load, if planned. */
  method MetadataStep(ing: Ingestion, env: Environment, d: Document, plan: Plan) returns (r: Run)
    ensures Ranks(r.launched) == (if plan.metadataLoad then [0] else [])
    ensures forall i :: 0 <= i < |r.launched| ==> r.launched[i].EnaLoad?
    ensures r.failure.None? <==> !plan.metadataLoad || env.enaLoadExit == 0
    ensures plan.metadataLoad ==> Query(r.checkpoint, EnaLoadKey) == Str(if env.enaLoadExit == 0 then "success" else "failure")
    ensures UnchangedExcept(d, r.checkpoint, MetadataWrites(plan))
  {
    if plan.metadataLoad {
      r := LoadFromEna(ing, d, env.enaLoadExit);
    } else {
      r := Run(d, [], None);
    }
  }

  /** The task part of `ingest`: metadata load, then accessioning, then variant load, each only if planned. */
  method RunTasks(ing: Ingestion, env: Environment, d: Document, plan: Plan, aggregation: Option<string>,
                  instanceId: Value, vepVersion: Value, vepCacheVersion: Value) returns (r: Run)
    ensures Ranks(r.launched) <= PlannedRanks(plan)
    ensures r.failure.None? ==> Ranks(r.launched) == PlannedRanks(plan)
    ensures UnchangedExcept(d, r.checkpoint, TaskWrites(plan))
    ensures plan.metadataLoad ==> Query(r.checkpoint, EnaLoadKey) == Str(if env.enaLoadExit == 0 then "success" else "failure")
    ensures forall i :: 0 <= i < |r.launched| && r.launched[i].VariantLoadRun? ==>
              aggregation.Some? && r.launched[i].load.needsMerge == (Lower(aggregation.value) == "none")
    ensures plan == Plan(false, false, true) && aggregation.Some? && |env.studyTitles| == 1 && Query(d, ScientificNameKey).Str? ==>
              |r.launched| == 1 && r.launched[0].VariantLoadRun?
    ensures StopsAtFirstFailure(plan, env, aggregation, r.launched)
    ensures r.failure.None? <==> TasksSucceed(plan, env, d, aggregation)
  {
    var ena := MetadataStep(ing, env, d, plan);
    if ena.failure.Some? || !(plan.accession || plan.variantLoad) {
      UnchangedExceptWiden(d, ena.checkpoint, MetadataWrites(plan), TaskWrites(plan));
      return ena;
    }
    assert Query(ena.checkpoint, ScientificNameKey) == Query(d, ScientificNameKey);
    var rest := RunPipelines(ing, env, ena.checkpoint, plan, aggregation, instanceId, vepVersion, vepCacheVersion);
    UnchangedExceptCompose(d, ena.checkpoint, rest.checkpoint, MetadataWrites(plan), PipelineWrites(plan), TaskWrites(plan));
    RanksAppend(ena.launched, rest.launched);
    PrefixAppend(Ranks(ena.launched), Ranks(rest.launched), PipelineRanks(plan));
    r := Run(rest.checkpoint, ena.launched + rest.launched, rest.failure);
    forall i | 0 <= i < |r.launched| && r.launched[i].VariantLoadRun?
      ensures aggregation.Some? && r.launched[i].load.needsMerge == (Lower(aggregation.value) == "none")
    {
      if i >= |ena.launched| {
        assert r.launched[i] == rest.launched[i - |ena.launched|];
      }
    }
  }

  /**
   The start of `ingest`: the ingestion date is stored before either gate, so a gate that fails
   still leaves it written; the database gate also stores the resolved name and whether it exists.
   */
  method PassGates(ing: Ingestion, env: Environment, dbName: Option<string>) returns (r: Run)
    ensures r.launched == []
    ensures Query(r.checkpoint, IngestionDateKey) == Str(env.now)
    ensures UnchangedExcept(ing.eload.config, r.checkpoint, {IngestionDateKey, DbNameKey, DbExistsKey})
    ensures r.failure.None? <==> PreconditionsHold(ing, env, dbName)
    ensures CheckBrokeringDone(ing.eload.config, ing.projectAccession).Some? ==>
              && r.failure == CheckBrokeringDone(ing.eload.config, ing.projectAccession)
              && UnchangedExcept(ing.eload.config, r.checkpoint, {IngestionDateKey})
    ensures CheckBrokeringDone(ing.eload.config, ing.projectAccession).None?
            && ResolveDbName(ing.eload.config, dbName, env.warehouseDbNames).Ok? ==>
              var name := ResolveDbName(ing.eload.config, dbName, env.warehouseDbNames).value;
              Query(r.checkpoint, DbNameKey) == Str(name) && Query(r.checkpoint, DbExistsKey) == Bool(name in env.mongoDatabases)
  {
    var dated := Set(ing.eload.config, IngestionDateKey, Str(env.now));
    assert CheckBrokeringDone(dated, ing.projectAccession) == CheckBrokeringDone(ing.eload.config, ing.projectAccession);
    assert ResolveDbName(dated, dbName, env.warehouseDbNames) == ResolveDbName(ing.eload.config, dbName, env.warehouseDbNames);
    var brokering := CheckBrokeringDone(dated, ing.projectAccession);
    if brokering.Some? {
      return Run(dated, [], brokering);
    }
    r := CheckVariantDb(dated, dbName, env.warehouseDbNames, env.mongoDatabases);
  }

  /** What the gates and the planned tasks write stays within `ingest`'s paths; no task rewrites the date. */
  lemma GateAndTaskWrites(plan: Plan)
    ensures {IngestionDateKey, DbNameKey, DbExistsKey} + TaskWrites(plan) <= IngestWrites
    ensures IngestionDateKey !in TaskWrites(plan)
  {
  }

  /**
   `ingest`: records the ingestion date, passes both gates, then runs the requested tasks in
   their fixed order. A gate that fails starts no process and leaves the ENA load outcome as it
   was; the checkpoint changes only on the paths `ingest` writes.
   */
  method Ingest(ing: Ingestion, env: Environment, aggregation: Option<string>, instanceId: Value,
                vepVersion: Value, vepCacheVersion: Value, dbName: Option<string>, tasks: seq<string>) returns (run: Run)
    ensures Query(run.checkpoint, IngestionDateKey) == Str(env.now)
    ensures UnchangedExcept(ing.eload.config, run.checkpoint, IngestWrites)
    ensures run.failure.None? ==> PreconditionsHold(ing, env, dbName)
    ensures !PreconditionsHold(ing, env, dbName) ==>
              run.launched == [] && run.failure.Some?
              && Query(run.checkpoint, EnaLoadKey) == Query(ing.eload.config, EnaLoadKey)
    ensures Ranks(run.launched) <= PlannedRanks(PlanOf(tasks))
    ensures run.failure.None? ==> Ranks(run.launched) == PlannedRanks(PlanOf(tasks))
    ensures run.failure.None? <==>
              PreconditionsHold(ing, env, dbName) && TasksSucceed(PlanOf(tasks), env, ing.eload.config, aggregation)
    ensures PreconditionsHold(ing, env, dbName) ==> StopsAtFirstFailure(PlanOf(tasks), env, aggregation, run.launched)
  {
    var plan := PlanOf(tasks);
    var gates := PassGates(ing, env, dbName);
    if gates.failure.Some? {
      return gates;
    }
    assert Query(gates.checkpoint, ScientificNameKey) == Query(ing.eload.config, ScientificNameKey);
    assert TasksSucceed(plan, env, gates.checkpoint, aggregation) == TasksSucceed(plan, env, ing.eload.config, aggregation);
    run := RunTasks(ing, env, gates.checkpoint, plan, aggregation, instanceId, vepVersion, vepCacheVersion);
    GateAndTaskWrites(plan);
    UnchangedExceptCompose(ing.eload.config, gates.checkpoint, run.checkpoint,
                           {IngestionDateKey, DbNameKey, DbExistsKey}, TaskWrites(plan), IngestWrites);
  }
}

=== FILE: paths.dfy ===
/**
 Directories as sequences of path components, the set of directories that exist, `os.makedirs`
 with `exist_ok=True`, and wildcard listings of one directory.
 */
module Paths {
  import opened Text

  type Path = seq<string>

  predicate IsPrefix(q: Path, p: Path) {
    |q| <= |p| && q == p[..|q|]
  }

  /** `p` lies strictly inside `root`. */
  predicate Within(p: Path, root: Path) {
    |root| < |p| && p[..|root|] == root
  }

  /** The directories `os.makedirs(p)` ensures: `p` and each of its ancestors below the root. */
  function Ancestry(p: Path): (r: set<Path>)
    ensures forall q :: q in r <==> q != [] && IsPrefix(q, p)
  {
    var r := set i | 1 <= i <= |p| :: p[..i];
    assert forall q :: q != [] && IsPrefix(q, p) ==> q in r by {
      forall q | q != [] && IsPrefix(q, p) ensures q in r {
        assert q == p[..|q|];
      }
    }
    r
  }

  /** What `os.makedirs(root)` then `os.makedirs(root/layout[k])` for every key leave in place. */
  function LayoutDirs(root: Path, layout: map<string, Path>): set<Path> {
    Ancestry(root) + (set k, q | k in layout && q in Ancestry(root + layout[k]) :: q)
  }

  /**
   Creates `root` and every folder of `layout` under it, with `exist_ok=True`: an existing
   directory is left alone and never raises.
   */
  function EnsureLayout(fs: set<Path>, root: Path, layout: map<string, Path>): (r: set<Path>)
    ensures fs <= r
    ensures root != [] ==> root in r
    ensures forall k :: k in layout && root != [] ==> root + layout[k] in r
    ensures forall q :: q in r && q !in fs ==>
              IsPrefix(q, root) || exists k :: k in layout && IsPrefix(q, root + layout[k])
  {
    assert forall k :: k in layout && root != [] ==> root + layout[k] in LayoutDirs(root, layout) by {
      forall k | k in layout && root != [] ensures root + layout[k] in LayoutDirs(root, layout) {
        assert root + layout[k] in Ancestry(root + layout[k]);
      }
    }
    fs + LayoutDirs(root, layout)
  }

  /** Running the creation a second time changes nothing. */
  lemma EnsureLayoutIdempotent(fs: set<Path>, root: Path, layout: map<string, Path>)
    ensures EnsureLayout(EnsureLayout(fs, root, layout), root, layout) == EnsureLayout(fs, root, layout)
  {
  }

  /** `str(path)` of an absolute path. */
  function PathString(p: Path): string {
    if p == [] then "" else "/" + p[0] + PathString(p[1..])
  }

  /**
   A shell wildcard `*<suffix>` against one directory entry. `glob.glob` skips entries whose
   name starts with '.', `pathlib.Path.glob` does not, hence `matchHidden`.
   */
  predicate WildcardMatch(name: string, suffix: string, matchHidden: bool) {
    EndsWith(name, suffix) && (matchHidden || !StartsWith(name, "."))
  }

  /** The entries of a directory listing that match `*<suffix>`, in listing order. */
  function MatchingNames(names: seq<string>, suffix: string, matchHidden: bool): (r: seq<string>)
    ensures forall x :: x in r <==> x in names && WildcardMatch(x, suffix, matchHidden)
    ensures |r| <= |names|
  {
    if names == [] then []
    else
      (if WildcardMatch(names[0], suffix, matchHidden) then [names[0]] else [])
      + MatchingNames(names[1..], suffix, matchHidden)
  }

  /** Matching distributes over concatenation of listings, so listing order is kept. */
  lemma {:induction false} MatchingNamesAppend(a: seq<string>, b: seq<string>, suffix: string, matchHidden: bool)
    ensures MatchingNames(a + b, suffix, matchHidden)
         == MatchingNames(a, suffix, matchHidden) + MatchingNames(b, suffix, matchHidden)
    decreases |a|
  {
    if a == [] {
      assert a + b == b;
    } else {
      assert (a + b)[0] == a[0];
      assert (a + b)[1..] == a[1..] + b;
      MatchingNamesAppend(a[1..], b, suffix, matchHidden);
    }
  }

  /** The string of a path with one more component is the parent's string, '/', then the component. */
  lemma {:induction false} PathStringAppend(p: Path, name: string)
    ensures PathString(p + [name]) == PathString(p) + "/" + name
    decreases |p|
  {
    if p == [] {
      assert p + [name] == [name];
    } else {
      assert (p + [name])[0] == p[0];
      assert (p + [name])[1..] == p[1..] + [name];
      PathStringAppend(p[1..], name);
    }
  }

  /** The full paths `os.path.join(dir, name)` of the given entries, in order. */
  function InDir(dir: Path, names: seq<string>): (r: seq<string>)
    ensures |r| == |names|
    ensures forall i :: 0 <= i < |names| ==> r[i] == PathString(dir) + "/" + names[i]
  {
    var r := seq(|names|, i requires 0 <= i < |names| => PathString(dir + [names[i]]));
    assert forall i :: 0 <= i < |names| ==> r[i] == PathString(dir) + "/" + names[i] by {
      forall i | 0 <= i < |names| ensures r[i] == PathString(dir) + "/" + names[i] {
        PathStringAppend(dir, names[i]);
      }
    }
    r
  }
}

=== FILE: results.dfy ===
/** Failure-carrying wrappers shared by every module of the model. */
module Results {

  /** A value that may be missing; Python's `None` on the optional paths of the program. */
  datatype Option<+T> = None | Some(value: T)

  /** A computed value, or the exception that the program would have raised instead. */
  datatype Result<+T, +E> = Ok(value: T) | Err(error: E)
}

=== FILE: submission.dfy ===
/**
 Submission bookkeeping of one ELOAD: its name, its fixed folder taxonomy, the `submission`
 section of its checkpoint and the detection of the submitted files and attributes.
 */
module Submission {
  import opened Results
  import opened Text
  import opened Paths
  import opened Checkpoint

  /** `directory_structure`; the key `biosamles` is spelled as the program spells it. */
  const DirectoryStructure: map<string, Path> := map[
    "vcf" := ["10_submitted", "vcf_files"],
    "metadata" := ["10_submitted", "metadata_file"],
    "vcf_check" := ["13_validation", "vcf_format"],
    "assembly_check" := ["13_validation", "assembly_check"],
    "sample_check" := ["13_validation", "sample_concordance"],
    "biosamles" := ["18_brokering", "biosamples"],
    "ena" := ["18_brokering", "ena"],
    "scratch" := ["20_scratch"]
  ]

  const SpreadsheetKey: Key := ["submission", "metadata_spreadsheet"]
  const SubmittedVcfKey: Key := ["submission", "vcf_files"]
  const AssemblyKey: Key := ["submission", "assembly_accession"]
  const TaxonomyKey: Key := ["submission", "taxonomy_id"]

  /** The exceptions raised by this part of the program. */
  datatype SubmissionError =
    | UnknownDirectory(key: string)   // KeyError on `directory_structure[key]`
    | SpreadsheetCount(found: nat)    // ValueError: not exactly one spreadsheet
    | NoVcfFiles                      // FileNotFoundError: no VCF submitted
    | ReferenceTextUnbound            // UnboundLocalError on `reference_txt`

  /** An `Eload` object once constructed. */
  datatype Eload = Eload(number: nat, id: string, dir: Path, configPath: Path, config: Document)

  /** A constructed `Eload` and the directories that exist afterwards. */
  datatype Created = Created(eload: Eload, fs: set<Path>)

  /** `f'ELOAD_{n}'`; the number can be read back from the name. */
  function EloadId(n: nat): (id: string)
    ensures StartsWith(id, "ELOAD_") && AllDigits(id[6..]) && ParseDecimal(id[6..]) == n
  {
    DecimalRoundTrip(n);
    var id := "ELOAD_" + Decimal(n);
    assert id[6..] == Decimal(n);
    id
  }

  /** Distinct submission numbers give distinct submission names. */
  lemma EloadIdInjective(a: nat, b: nat)
    requires EloadId(a) == EloadId(b)
    ensures a == b
  {
  }

  /** `os.path.join(eloads_dir, eload)` under an already absolute `eloads_dir`. */
  function EloadDir(eloadsDir: Path, n: nat): (dir: Path)
    ensures Within(dir, eloadsDir) && |dir| == |eloadsDir| + 1 && dir[|eloadsDir|] == EloadId(n)
  {
    eloadsDir + [EloadId(n)]
  }

  /**
   `Eload(n)`: names the submission, locates its checkpoint file and creates its directory and
   every folder of the taxonomy. `stored` is the document found at the checkpoint path.
   */
  function NewEload(n: nat, eloadsDir: Path, stored: Document, fs: set<Path>): (r: Created)
    ensures r.eload.number == n && r.eload.id == EloadId(n) && r.eload.dir == EloadDir(eloadsDir, n)
    ensures r.eload.configPath == r.eload.dir + ["." + r.eload.id + "_config.yml"]
    ensures r.eload.config == stored
    ensures fs <= r.fs && r.eload.dir in r.fs
    ensures forall k :: k in DirectoryStructure ==> r.eload.dir + DirectoryStructure[k] in r.fs
    ensures forall q :: q in r.fs && q !in fs ==>
              IsPrefix(q, r.eload.dir) || exists k :: k in DirectoryStructure && IsPrefix(q, r.eload.dir + DirectoryStructure[k])
  {
    var id := EloadId(n);
    var dir := EloadDir(eloadsDir, n);
    Created(Eload(n, id, dir, dir + ["." + id + "_config.yml"], stored), EnsureLayout(fs, dir, DirectoryStructure))
  }

  /** Constructing the same submission again creates nothing and fails on nothing. */
  lemma NewEloadIdempotent(n: nat, eloadsDir: Path, stored: Document, fs: set<Path>)
    ensures NewEload(n, eloadsDir, stored, NewEload(n, eloadsDir, stored, fs).fs) == NewEload(n, eloadsDir, stored, fs)
  {
    EnsureLayoutIdempotent(fs, EloadDir(eloadsDir, n), DirectoryStructure);
  }

  /** No path at or under one submission's directory lies at or under another's. */
  lemma EloadsDoNotOverlap(eloadsDir: Path, n1: nat, n2: nat, p: Path)
    requires n1 != n2
    ensures !IsPrefix(EloadDir(eloadsDir, n2), EloadDir(eloadsDir, n1) + p)
  {
  }

  /** `_get_dir(key)`. */
  function GetDir(e: Eload, key: string): (r: Result<Path, SubmissionError>)
    ensures r.Ok? <==> key in DirectoryStructure
    ensures r.Err? ==> r.error == UnknownDirectory(key)
    ensures r.Ok? ==> Within(r.value, e.dir) && r.value[|e.dir|..] == DirectoryStructure[key]
  {
    if key in DirectoryStructure then
      var p := e.dir + DirectoryStructure[key];
      assert p[|e.dir|..] == DirectoryStructure[key];
      Ok(p)
    else Err(UnknownDirectory(key))
  }

  /** Two different folder keys never resolve to the same directory. */
  lemma GetDirDistinct(e: Eload, k1: string, k2: string)
    requires k1 in DirectoryStructure && k2 in DirectoryStructure && k1 != k2
    ensures GetDir(e, k1).value != GetDir(e, k2).value
  {
  }

  /**
   `add_to_submission_config(key, value)`: the `submission` section gets `key := value`, being
   created first when missing; no other fact of the checkpoint changes.
   */
  function AddToSubmissionConfig(d: Document, key: string, v: Value): (r: Document)
    ensures Query(r, ["submission", key]) == v
    ensures forall q :: q != ["submission", key] ==> Query(r, q) == Query(d, q)
  {
    Set(d, ["submission", key], v)
  }

  function MetadataDir(e: Eload): Path {
    e.dir + DirectoryStructure["metadata"]
  }

  function VcfDir(e: Eload): Path {
    e.dir + DirectoryStructure["vcf"]
  }

  /**
   `detect_submitted_metadata` over the listing of the metadata folder: fails unless exactly one
   visible entry matches `*.xlsx`, and then records that entry's full path.
   */
  function DetectSubmittedMetadata(e: Eload, listing: seq<string>): (r: Result<Document, SubmissionError>)
    ensures r.Ok? <==> |MatchingNames(listing, ".xlsx", false)| == 1
    ensures r.Err? ==> r.error == SpreadsheetCount(|MatchingNames(listing, ".xlsx", false)|)
    ensures r.Ok? ==> forall x :: x in listing && WildcardMatch(x, ".xlsx", false) ==>
              Query(r.value, SpreadsheetKey) == Str(PathString(MetadataDir(e)) + "/" + x)
    ensures r.Ok? ==> forall q :: q != SpreadsheetKey ==> Query(r.value, q) == Query(e.config, q)
  {
    var found := MatchingNames(listing, ".xlsx", false);
    if |found| != 1 then Err(SpreadsheetCount(|found|))
    else
      assert forall x :: x in listing && WildcardMatch(x, ".xlsx", false) ==> x == found[0] by {
        forall x | x in listing && WildcardMatch(x, ".xlsx", false) ensures x == found[0] {
          assert x in found;
        }
      }
      PathStringAppend(MetadataDir(e), found[0]);
      Ok(AddToSubmissionConfig(e.config, "metadata_spreadsheet", Str(PathString(MetadataDir(e) + [found[0]]))))
  }

  /** The `*.vcf` matches followed by the `*.vcf.gz` matches of a listing. */
  function SubmittedVcfNames(listing: seq<string>): (r: seq<string>)
    ensures forall x :: x in r <==> x in listing && (WildcardMatch(x, ".vcf", false) || WildcardMatch(x, ".vcf.gz", false))
    ensures var k := |MatchingNames(listing, ".vcf", false)|;
            k <= |r|
            && (forall i :: 0 <= i < k ==> EndsWith(r[i], ".vcf"))
            && (forall i :: k <= i < |r| ==> EndsWith(r[i], ".vcf.gz"))
  {
    var uncompressed := MatchingNames(listing, ".vcf", false);
    var compressed := MatchingNames(listing, ".vcf.gz", false);
    var r := uncompressed + compressed;
    assert forall i :: 0 <= i < |uncompressed| ==> r[i] in uncompressed;
    assert forall i :: |uncompressed| <= i < |r| ==> r[i] in compressed;
    r
  }

  /** No entry is reported twice: a name cannot end in both `.vcf` and `.vcf.gz`. */
  lemma VcfHalvesDisjoint(name: string)
    ensures !(EndsWith(name, ".vcf") && EndsWith(name, ".vcf.gz"))
  {
    if EndsWith(name, ".vcf") {
      assert name[|name| - 1] == ".vcf"[3];
    }
  }

  /**
   `detect_submitted_vcf` over the listing of the VCF folder: fails when no visible entry matches
   `*.vcf` or `*.vcf.gz`, and otherwise records the full paths of all matches.
   */
  function DetectSubmittedVcf(e: Eload, listing: seq<string>): (r: Result<Document, SubmissionError>)
    ensures r.Ok? <==> exists x :: x in listing && (WildcardMatch(x, ".vcf", false) || WildcardMatch(x, ".vcf.gz", false))
    ensures r.Err? ==> r.error == NoVcfFiles
    ensures r.Ok? ==> Query(r.value, SubmittedVcfKey) == StrList(InDir(VcfDir(e), SubmittedVcfNames(listing)))
    ensures r.Ok? ==> forall q :: q != SubmittedVcfKey ==> Query(r.value, q) == Query(e.config, q)
  {
    var names := SubmittedVcfNames(listing);
    if |names| < 1 then Err(NoVcfFiles)
    else
      assert names[0] in names;
      Ok(AddToSubmissionConfig(e.config, "vcf_files", StrList(InDir(VcfDir(e), names))))
  }

  /** The union of the assembly accessions found for every analysis of the spreadsheet. */
  function UnionAll(sets: seq<set<string>>): (u: set<string>)
    ensures forall x :: x in u <==> exists i :: 0 <= i < |sets| && x in sets[i]
  {
    if sets == [] then {}
    else
      var rest := UnionAll(sets[1..]);
      assert forall x :: x in rest ==> exists i :: 0 <= i < |sets| && x in sets[i] by {
        forall x | x in rest ensures exists i :: 0 <= i < |sets| && x in sets[i] {
          var j :| 0 <= j < |sets[1..]| && x in sets[1..][j];
          assert x in sets[j + 1];
        }
      }
      assert forall x :: (exists i :: 0 <= i < |sets| && x in sets[i]) ==> x in sets[0] + rest by {
        forall x | exists i :: 0 <= i < |sets| && x in sets[i] ensures x in sets[0] + rest {
          var i :| 0 <= i < |sets| && x in sets[i];
          if i > 0 {
            assert x in sets[1..][i - 1];
          }
        }
      }
      sets[0] + rest
  }

  lemma SingletonIsDisplay(s: set<string>)
    requires |s| == 1
    ensures exists x :: s == {x}
  {
    var x :| x in s;
    assert |s - {x}| == 0;
    assert s == {x};
  }

  /** The one element of a singleton set: what `reference_gca.pop()` returns. */
  function Sole(s: set<string>): (x: string)
    requires |s| == 1
    ensures s == {x}
  {
    SingletonIsDisplay(s);
    var x :| s == {x};
    x
  }

  /**
   `detect_metadata_attibutes`, decision part, given for every analysis of the spreadsheet the
   assembly accessions found for its reference and the project's taxonomy id. Several
   accessions record no assembly, exactly one records it, and the taxonomy id is recorded
   in every case. This is the corrected definition: with no analysis at all it records the
   taxonomy id, where the program as written raises (see `DetectMetadataAttributesAsWritten`).
   */
  function DetectMetadataAttributes(d: Document, referenceSets: seq<set<string>>, taxonomyId: Value): (r: Document)
    ensures Query(r, TaxonomyKey) == taxonomyId
    ensures forall x :: x in UnionAll(referenceSets) && |UnionAll(referenceSets)| == 1 ==> Query(r, AssemblyKey) == Str(x)
    ensures |UnionAll(referenceSets)| != 1 ==> Query(r, AssemblyKey) == Query(d, AssemblyKey)
    ensures forall q :: q != AssemblyKey && q != TaxonomyKey ==> Query(r, q) == Query(d, q)
  {
    var gca := UnionAll(referenceSets);
    var withAssembly := if |gca| == 1 then AddToSubmissionConfig(d, "assembly_accession", Str(Sole(gca))) else d;
    AddToSubmissionConfig(withAssembly, "taxonomy_id", taxonomyId)
  }

  /**
   `detect_metadata_attibutes` as written: with an empty list of analyses the error branch
   formats `reference_txt`, which the loop never bound, and raises before the taxonomy id is
   recorded.
   */
  function DetectMetadataAttributesAsWritten(d: Document, referenceSets: seq<set<string>>, taxonomyId: Value)
    : (r: Result<Document, SubmissionError>)
    ensures r.Err? <==> referenceSets == []
    ensures r.Err? ==> r.error == ReferenceTextUnbound
    ensures r.Ok? ==> r.value == DetectMetadataAttributes(d, referenceSets, taxonomyId)
  {
    var gca := UnionAll(referenceSets);
    if |gca| == 0 && referenceSets == [] then Err(ReferenceTextUnbound)
    else Ok(DetectMetadataAttributes(d, referenceSets, taxonomyId))
  }

  /** A spreadsheet without analyses: the program raises, the corrected definition records the taxonomy id. */
  lemma NoAnalysisLosesTaxonomy(d: Document, taxonomyId: Value)
    ensures DetectMetadataAttributesAsWritten(d, [], taxonomyId) == Err(ReferenceTextUnbound)
    ensures Query(DetectMetadataAttributes(d, [], taxonomyId), TaxonomyKey) == taxonomyId
  {
  }
}

=== FILE: text.dfy ===
/**
 Character and string helpers with the meaning Python gives them, restricted to ASCII:
 `str.lower`, `str.split()` with no separator, `'_'.join`, decimal formatting of an `int`.
 */
module Text {

  predicate StartsWith(s: string, prefix: string) {
    |prefix| <= |s| && s[..|prefix|] == prefix
  }

  predicate EndsWith(s: string, suffix: string) {
    |suffix| <= |s| && s[|s| - |suffix|..] == suffix
  }

  /** The ASCII characters that `str.isspace` accepts (and so `str.split()` breaks on). */
  predicate IsSpace(c: char) {
    var n := c as int;
    n == 32 || 9 <= n <= 13 || 28 <= n <= 31
  }

  predicate IsUpper(c: char) {
    'A' <= c <= 'Z'
  }

  predicate NoSpace(s: string) {
    forall i :: 0 <= i < |s| ==> !IsSpace(s[i])
  }

  predicate NoUpper(s: string) {
    forall i :: 0 <= i < |s| ==> !IsUpper(s[i])
  }

  function LowerChar(c: char): char {
    if IsUpper(c) then (c as int + 32) as char else c
  }

  /**
   `s.lower()` on ASCII letters: the result has no upper-case letter, each upper-case letter
   moves to its lower-case partner 32 code points on, and every other character is kept.
   */
  function Lower(s: string): (r: string)
    ensures |r| == |s| && NoUpper(r)
    ensures forall i :: 0 <= i < |s| && IsUpper(s[i]) ==> r[i] as int == s[i] as int + 32
    ensures forall i :: 0 <= i < |s| && !IsUpper(s[i]) ==> r[i] == s[i]
    ensures NoUpper(s) ==> r == s
    ensures NoSpace(s) ==> NoSpace(r)
  {
    seq(|s|, i requires 0 <= i < |s| => LowerChar(s[i]))
  }

  /** Lower-casing works character by character, so it distributes over concatenation. */
  lemma LowerAppend(a: string, b: string)
    ensures Lower(a + b) == Lower(a) + Lower(b)
  {
    assert forall i :: 0 <= i < |a + b| ==> Lower(a + b)[i] == (Lower(a) + Lower(b))[i];
  }

  /** The longest prefix of `s` free of whitespace. */
  function TakeWord(s: string): (w: string)
    ensures |w| <= |s| && w == s[..|w|]
    ensures NoSpace(w)
    ensures |w| < |s| ==> IsSpace(s[|w|])
  {
    if s == [] || IsSpace(s[0]) then [] else [s[0]] + TakeWord(s[1..])
  }

  /** `s.split()`: the maximal whitespace-free runs of `s`, in order. */
  function Words(s: string): (ws: seq<string>)
    ensures forall k :: 0 <= k < |ws| ==> ws[k] != [] && NoSpace(ws[k])
    ensures forall k, i :: 0 <= k < |ws| && 0 <= i < |ws[k]| ==> ws[k][i] in s
    decreases |s|
  {
    if s == [] then []
    else if IsSpace(s[0]) then Words(s[1..])
    else
      var w := TakeWord(s);
      [w] + Words(s[|w|..])
  }

  /** `sep.join(ws)` for a one-character separator. */
  function JoinWith(sep: char, ws: seq<string>): string {
    if |ws| == 0 then ""
    else if |ws| == 1 then ws[0]
    else ws[0] + [sep] + JoinWith(sep, ws[1..])
  }

  function Concat(ws: seq<string>): string {
    if ws == [] then "" else ws[0] + Concat(ws[1..])
  }

  /** The characters of `s` that are not whitespace, in order. */
  function Squeeze(s: string): string {
    if s == [] then "" else (if IsSpace(s[0]) then "" else [s[0]]) + Squeeze(s[1..])
  }

  lemma {:induction false} SqueezeAppend(a: string, b: string)
    ensures Squeeze(a + b) == Squeeze(a) + Squeeze(b)
    decreases |a|
  {
    if a == [] {
      assert a + b == b;
    } else {
      assert (a + b)[0] == a[0];
      assert (a + b)[1..] == a[1..] + b;
      SqueezeAppend(a[1..], b);
    }
  }

  lemma {:induction false} SqueezeNoSpace(w: string)
    requires NoSpace(w)
    ensures Squeeze(w) == w
    decreases |w|
  {
    if w != [] {
      SqueezeNoSpace(w[1..]);
      assert w == [w[0]] + w[1..];
    }
  }

  /** Splitting into words loses exactly the whitespace: the words, glued back, are `s` without it. */
  lemma {:induction false} WordsKeepEveryOtherCharacter(s: string)
    ensures Concat(Words(s)) == Squeeze(s)
    decreases |s|
  {
    if s == [] {
    } else if IsSpace(s[0]) {
      WordsKeepEveryOtherCharacter(s[1..]);
    } else {
      var w := TakeWord(s);
      var rest := s[|w|..];
      assert s == w + rest;
      WordsKeepEveryOtherCharacter(rest);
      assert ([w] + Words(rest))[1..] == Words(rest);
      SqueezeAppend(w, rest);
      SqueezeNoSpace(w);
    }
  }

  /** A non-empty whitespace-free string is a single word. */
  lemma WordsOfOneWord(s: string)
    requires s != [] && NoSpace(s)
    ensures Words(s) == [s]
  {
    var w := TakeWord(s);
    assert |w| == |s|;
    assert w == s;
    assert s[|w|..] == [];
  }

  /** A word that ends before `a` does, or that `t` cuts off with whitespace, is unaffected by `t`. */
  lemma {:induction false} TakeWordAppend(a: string, t: string)
    requires |TakeWord(a)| < |a| || (t != [] && IsSpace(t[0]))
    ensures TakeWord(a + t) == TakeWord(a)
    decreases |a|
  {
    if a == [] {
    } else if IsSpace(a[0]) {
      assert (a + t)[0] == a[0];
    } else {
      assert (a + t)[0] == a[0];
      assert (a + t)[1..] == a[1..] + t;
      TakeWordAppend(a[1..], t);
    }
  }

  /**
   `split()` breaks at every whitespace character: the words around one are the words of each
   side. Together with `WordsOfOneWord` this determines `Words` completely.
   */
  lemma {:induction false} WordsSpaceSplit(a: string, c: char, b: string)
    requires IsSpace(c)
    ensures Words(a + [c] + b) == Words(a) + Words(b)
    decreases |a|
  {
    var s := a + [c] + b;
    if a == [] {
      assert s == [c] + b;
      assert s[1..] == b;
    } else if IsSpace(a[0]) {
      assert s[0] == a[0];
      assert s[1..] == a[1..] + [c] + b;
      WordsSpaceSplit(a[1..], c, b);
    } else {
      assert s == a + ([c] + b);
      TakeWordAppend(a, [c] + b);
      var w := TakeWord(a);
      assert s[0] == a[0];
      assert s[|w|..] == a[|w|..] + [c] + b;
      WordsSpaceSplit(a[|w|..], c, b);
    }
  }

  /** Splitting words joined by single spaces gives the words back. */
  lemma {:induction false} WordsOfJoin(ws: seq<string>)
    requires forall k :: 0 <= k < |ws| ==> ws[k] != [] && NoSpace(ws[k])
    ensures Words(JoinWith(' ', ws)) == ws
    decreases |ws|
  {
    if |ws| == 1 {
      WordsOfOneWord(ws[0]);
    } else if |ws| > 1 {
      WordsOfOneWord(ws[0]);
      WordsOfJoin(ws[1..]);
      WordsSpaceSplit(ws[0], ' ', JoinWith(' ', ws[1..]));
      assert ws == [ws[0]] + ws[1..];
    }
  }

  lemma {:induction false} JoinKeepsClean(sep: char, ws: seq<string>)
    requires !IsSpace(sep) && !IsUpper(sep)
    requires forall k :: 0 <= k < |ws| ==> NoSpace(ws[k]) && NoUpper(ws[k])
    ensures NoSpace(JoinWith(sep, ws)) && NoUpper(JoinWith(sep, ws))
    decreases |ws|
  {
    if |ws| > 1 {
      JoinKeepsClean(sep, ws[1..]);
      var tail := JoinWith(sep, ws[1..]);
      var r := ws[0] + [sep] + tail;
      assert forall i :: 0 <= i < |r| ==> r[i] == (if i < |ws[0]| then ws[0][i] else if i == |ws[0]| then sep else tail[i - |ws[0]| - 1]);
    }
  }

  /** Each word lower-cased. */
  function LowerEach(ws: seq<string>): seq<string> {
    if ws == [] then [] else [Lower(ws[0])] + LowerEach(ws[1..])
  }

  /** Lower-casing a joined string lower-cases each part and keeps a non-letter separator. */
  lemma {:induction false} LowerJoin(sep: char, ws: seq<string>)
    requires !IsUpper(sep)
    ensures Lower(JoinWith(sep, ws)) == JoinWith(sep, LowerEach(ws))
    decreases |ws|
  {
    if |ws| > 1 {
      LowerJoin(sep, ws[1..]);
      LowerAppend(ws[0] + [sep], JoinWith(sep, ws[1..]));
      LowerAppend(ws[0], [sep]);
    }
  }

  /** Lower-casing keeps each word non-empty and free of whitespace. */
  lemma {:induction false} LowerEachKeepsWords(ws: seq<string>)
    requires forall k :: 0 <= k < |ws| ==> ws[k] != [] && NoSpace(ws[k])
    ensures |LowerEach(ws)| == |ws|
    ensures forall k :: 0 <= k < |ws| ==> LowerEach(ws)[k] != [] && NoSpace(LowerEach(ws)[k])
    decreases |ws|
  {
    if ws != [] {
      LowerEachKeepsWords(ws[1..]);
      assert forall k :: 1 <= k < |ws| ==> LowerEach(ws)[k] == LowerEach(ws[1..])[k - 1];
    }
  }

  predicate IsDigit(c: char) {
    '0' <= c <= '9'
  }

  predicate AllDigits(s: string) {
    forall i :: 0 <= i < |s| ==> IsDigit(s[i])
  }

  function DigitChar(d: nat): (c: char)
    requires d < 10
    ensures IsDigit(c)
  {
    ('0' as int + d) as char
  }

  /** `str(n)` for a non-negative `int`. */
  function Decimal(n: nat): (s: string)
    ensures |s| >= 1 && AllDigits(s)
  {
    if n < 10 then [DigitChar(n)] else Decimal(n / 10) + [DigitChar(n % 10)]
  }

  /** Reads a string of decimal digits back into the number it denotes. */
  function ParseDecimal(s: string): nat
    requires AllDigits(s)
  {
    if s == [] then 0 else ParseDecimal(s[..|s| - 1]) * 10 + (s[|s| - 1] as int - '0' as int)
  }

  lemma {:induction false} DecimalRoundTrip(n: nat)
    ensures ParseDecimal(Decimal(n)) == n
    decreases n
  {
    if n < 10 {
      assert Decimal(n)[..0] == [];
    } else {
      var s := Decimal(n);
      assert s[..|s| - 1] == Decimal(n / 10);
      DecimalRoundTrip(n / 10);
    }
  }
}
